=== FILE: README.md ===
# saturn.py core, modelled in Dafny

A model of the sequential core of `saturn.py`, an asynchronous Python client for
the Saturn school-schedule API:

- **Entity decoding** (`saturn/models.py`): a raw JSON object becomes a `Permissions`,
  `Media`, `BaseUser` or `ClientUser` record by direct `data[key]` lookups, in the order
  the source reads them; the first absent key raises `KeyError`. `_update` on an existing
  object reassigns the attributes one by one, so a completed update replaces the whole
  snapshot and an interrupted one leaves the attributes before the missing key updated.
  The derived accessors (`created_at`, `updated_at`, `profile_picture`, `courses`,
  `birthday`) are functions of the stored raw values.
- **The client runtime** (`saturn/client.py`): the credential pair, the event-handler
  registry, the one-shot `_ready_dispatched` flag and the signed-in user, with the
  constructor, `on`, `dispatch`, the token refresh, `fetch_self` and header composition
  as pure transitions. A dispatch is the sequence of handlers it invokes. A network
  response is a parameter of the transition that awaits it. `Client.Run` drives the
  runtime with any sequence of responses and registrations.
- **The user cache** (`saturn/utils.py`): a registry from user id to an entry holding the
  decoded user and the time it was stored, with the ready guard, lookup, `update_user`,
  `update_many` and `to_dict`.

Modules: `Wrappers` (`Option`, `Result`, `Outcome`), `Json` (JSON values and Python
truthiness and hashability), `Errors` (the exceptions raised), `Models`, `Client`, `Cache`.

Where the source is evidently defective, the model holds both the code as written and
the corrected reading. The rest of the model uses the corrected reading (see
"## Findings").

## Model

| member | source | states |
|---|---|---|
| `Models.PresentFrom` | saturn/models.py:55-84 | the position of the first key among the remaining ones whose lookup raises: every key before it is present, the key at it is absent |
| `Models.PresentPrefixComplete` | saturn/models.py:55-84 | the keys can all be read exactly when none is absent, and otherwise reading stops at the first absent key |
| `Models.Pick` | saturn/models.py:55-84 | a run of `data[key]` reads succeeds iff every key is present; it then returns the value under each key, position by position, and otherwise raises `KeyError` for the first absent key in read order |
| `Models.Overwrite` | saturn/models.py:54-84 | a run of `self.f = data[key]` assignments: on success every slot holds the payload's value; on a raise, the slots before the first absent key hold the new values and the rest keep their prior ones |
| `Models.HasKeysAppend` | saturn/models.py:109-110 | the base keys followed by the extension keys are all present iff both key sets are |
| `Models.KeyErrorAppendRight` | saturn/models.py:109-125 | after a complete base read, an extension read that raises is a read of the whole key list that raises at the same key |
| `Models.NewPermissions` | saturn/models.py:8-34 | each getter returns the constructor argument it stores |
| `Models.PermissionsDefaultFalse` | saturn/models.py:10-13 | every permission flag defaults to false |
| `Models.DecodeMedia` | saturn/models.py:36-43 | `Media(data)` succeeds iff the six media keys are present, holds their values in order, and otherwise raises `KeyError` for the first one missing |
| `Models.DecodeBase` | saturn/models.py:49-84 | constructing a user succeeds iff all thirty keys `_update` reads are present; each attribute is the payload's value under its key; otherwise it raises `KeyError` for the first absent key |
| `Models.UpdateBase` | saturn/models.py:54-84 | `_update` on an existing user: complete iff every key is present, and then every attribute is the new payload's value; an interrupted update leaves the attributes after the missing key untouched |
| `Models.DecodeClient` | saturn/models.py:105-125 | constructing the signed-in user needs the base keys followed by the extension keys; its base record is the plain user decoded from the same payload |
| `Models.UpdateClient` | saturn/models.py:109-125 | a complete `ClientUser._update` yields the record a fresh construction from the payload yields; a failure in the base keys leaves the extension attributes unchanged |
| `Models.DecodeBaseRenamedKeys` | saturn/models.py:63-71 | the attributes filled from renamed keys (`cohort` from `user_cohort`, `instagram` from `user_instagram`, ...) hold the payload's values under those keys |
| `Models.DecodeBaseKeyAttributes` | saturn/models.py:55-84 | `created_at`, `updated_at`, `id`, the profile picture and the courses hold the payload's values under their keys |
| `Models.UpdateBaseReplacesSnapshot` | saturn/models.py:54-84 | after a completed `_update` the user equals the one constructed from the new payload, whatever it held before; nothing of the old snapshot survives |
| `Models.ClientPayloadDecodesAsBase` | saturn/models.py:109-125 | every payload that constructs a signed-in user also constructs a plain user with identical base attributes |
| `Models.DecodeClientDeterminedByReads` | saturn/models.py:109-125 | a signed-in user whose every attribute was read from a payload is the one constructing from that payload yields |
| `Models.FromIso` | saturn/models.py:86-92 | the timestamp accessors pass the stored string to the ISO parser; a stored value that is not a string raises `TypeError` |
| `Models.CreatedAt` | saturn/models.py:86-88 | `created_at` is the parse of the stored `created_at` string, whatever else the user holds; a non-string raises `TypeError` |
| `Models.UpdatedAt` | saturn/models.py:90-92 | `updated_at` is the parse of the stored `updated_at` string, whatever else the user holds; a non-string raises `TypeError` |
| `Models.TimestampsFollowSnapshot` | saturn/models.py:86-92 | after a completed `_update`, `created_at` and `updated_at` are the parses of the new payload's strings, whatever the user held before |
| `Models.ProfilePicture` | saturn/models.py:94-99 | `profile_picture` is nothing iff the stored value is falsy; otherwise it is the `Media` decoded from it, which needs the six media keys |
| `Models.Courses` | saturn/models.py:101-103 | `courses` succeeds iff the stored value is an empty iterable, giving no courses; a non-empty one raises `NotImplementedError` from `Course`, a non-iterable one `TypeError` |
| `Models.NewUserAsWritten` | saturn/models.py:132-134 | `User(data)` as written always raises, because `__init__` has no `self` for zero-argument `super()` |
| `Models.NewUserAsWrittenRejectsComplete` | saturn/models.py:133-134 | a payload with every key fails as written and decodes under the corrected reading |
| `Models.CityAsWritten` | saturn/models.py:69 | the trailing comma stores a one-element tuple holding the payload's value |
| `Models.CityAsWrittenNullIsTruthy` | saturn/models.py:69 | a null `user_city` gives a truthy `city` as written and a falsy one when corrected |
| `Models.BirthdayAsWritten` | saturn/models.py:127-129 | `birthday` as written raises `TypeError` from `datetime.date()` before the stored value is read |
| `Models.Birthday` | saturn/models.py:127-129 | the corrected `birthday` parses the stored `birthday` string, and raises when it is not a string |
| `Models.BirthdayAsWrittenIgnoresStoredDate` | saturn/models.py:127-129 | a user with a well-formed stored birthday reads it when corrected and never as written |
| `Client.IntervalSeconds` | saturn/client.py:15 | a number is stored as given, a duration as its total seconds (86400 per day); the default duration is 7200 seconds |
| `Client.DurationConfiguresSeconds` | saturn/client.py:12-15 | a duration and the number of seconds it spans construct the same client state; without the argument the interval is two hours |
| `Client.Init` | saturn/client.py:12-37 | after construction the registry has exactly the five declared events; every list is empty except `token_refresh`, which is `[fetch_self]`; the tokens are the arguments; `ready` has not been dispatched and there is no user |
| `Client.On` | saturn/client.py:117-121 | `on(e)(h)` on a declared event appends `h` after `e`'s handlers, leaves every other list and the rest of the state unchanged, and returns `h`; an undeclared event raises `KeyError` |
| `Client.Dispatch` | saturn/client.py:112-115 | an undeclared event invokes nothing; a declared one invokes exactly its handler list, in order |
| `Client.DispatchFollowsRegistrationOrder` | saturn/client.py:112-121 | after a series of registrations, a dispatch invokes the handlers the event had, then the new ones in registration order |
| `Client.RegisterAllDeclaredOnly` | saturn/client.py:117-121 | a series of registrations succeeds iff every event it names is declared, and never adds an event |
| `Client.AuthorizationHeader` | saturn/client.py:52-54 | the header is `"Bearer "` followed by the access token; a token that is not a string raises `TypeError` |
| `Client.RequestHeaders` | saturn/client.py:93-96 | the headers of an authenticated request are the three defaults plus `Authorization` |
| `Client.Replaced` | saturn/client.py:87-90 | a token in the refresh response replaces the stored one iff it is truthy |
| `Client.RequestRefresh` | saturn/client.py:75-91 | a refresh completes iff the status is below 400 and the body holds both token keys; it then updates each token iff the response's is truthy and dispatches `token_refresh`; a failed status changes nothing and dispatches nothing; only the tokens ever change |
| `Client.FetchSelfStep` | saturn/client.py:101-106 | a profile fetch sets the user to the decoded payload, and dispatches `ready` after that only if it had not been dispatched; the flag is then set; a failed fetch changes nothing |
| `Client.ReadyAtMostOnce` | saturn/client.py:101-106 | over any run, `ready` is dispatched exactly once if the run sets the flag and never if it was already set; the flag never resets |
| `Client.RunPreservesWiring` | saturn/client.py:37 | over any run the declared events stay the registry's keys, and `fetch_self` stays the first `token_refresh` handler |
| `Client.InitWired` | saturn/client.py:20-37 | construction wires `fetch_self` to `token_refresh` over exactly the declared events |
| `Client.RunKeepsTokensTruthy` | saturn/client.py:87-90 | no run turns a truthy stored token falsy |
| `Client.TwoRefreshesKeepNewestTokens` | saturn/client.py:87-90 | two refreshes, each answering only one new token, leave the newer value of each |
| `Cache.NewCache` | saturn/utils.py:17-19 | a new cache has an empty registry and satisfies the cache invariant |
| `Cache.Lookup` | saturn/utils.py:21-25 | `cache[key]` gives nothing iff the id is not in the registry, and otherwise the stored user; an unhashable key raises `TypeError` |
| `Cache.Admit` | saturn/utils.py:32-41 | a client that is not ready is refused before the payload is read, and a payload without `id` raises `KeyError('id')`; an accepted payload gives its id and a user carrying that id |
| `Cache.AdmitDecodes` | saturn/utils.py:32-41 | a payload is accepted iff the client is ready, the id is hashable and the payload constructs a user; the result is that id and that user, and a decoding failure is raised as is |
| `Cache.Store` | saturn/utils.py:38-42 | filing a user under an id adds or replaces that id's entry, stamped with the current time, and leaves every other entry as it was |
| `Cache.UpdateUser` | saturn/utils.py:32-42 | `update_user` stores iff the payload is accepted, and otherwise raises `Admit`'s error; a store files the decoded user under its id and keeps the cache invariant |
| `Cache.UpdateThenLookup` | saturn/utils.py:36-42 | after `update_user`, looking up the payload's id returns the user decoded from that payload |
| `Cache.UpdateUserEntryCount` | saturn/utils.py:38-44 | a new id adds exactly one entry; a present id keeps the count and gets a strictly later timestamp |
| `Cache.StoreAllKeys` | saturn/utils.py:38-42 | after a series of stores the registry's ids are the ids held before plus the stored ones |
| `Cache.StoreAllFrame` | saturn/utils.py:38-42 | an id none of the stores carries keeps its entry |
| `Cache.StoreAllLastWriteWins` | saturn/utils.py:38-42 | after a series of stores each id holds the user of the last store carrying it, stamped at that store's time |
| `Cache.StoreAllValid` | saturn/utils.py:38-42 | stores that file each user under its own id keep the cache invariant |
| `Cache.UpdateFromStores` | saturn/utils.py:27-30 | the `update_many` loop from any payload on stores what `Admit` makes of each payload, in order, or stops at the first payload it refuses |
| `Cache.UpdateMany` | saturn/utils.py:27-30 | `update_many` completes iff every payload is accepted, storing them in list order; otherwise it raises the first refused payload's error with the payloads before it stored |
| `Cache.UpdateManyKeepsValid` | saturn/utils.py:27-30 | the stores `update_many` makes keep the cache invariant |
| `Cache.UpdateManyStoresDecoded` | saturn/utils.py:27-30 | the `j`-th store of `update_many` is payload `j`'s id with the user decoded from payload `j` |
| `Cache.UpdateManyVisitsEveryId` | saturn/utils.py:27-30 | after a completed `update_many` every payload's id is in the registry, along with every id held before |
| `Cache.ToDict` | saturn/utils.py:47-48 | `to_dict` holds the same ids as the registry, each with the same entry |
| `Cache.ReadyCheckAsWritten` | saturn/utils.py:33 | the guard as written reads `client.ready`, which `Client` never defines, so it raises `AttributeError` in every state |
| `Cache.ReadyCheckAsWrittenRejectsReadyClient` | saturn/utils.py:33-34 | a ready client fails the guard as written and passes the corrected one |
| `Cache.ReplaceExistingAsWritten` | saturn/utils.py:43-45 | the existing-id branch as written overwrites the entry with a bare timestamp, then raises `KeyError('user')` unless the registry happens to hold a `'user'` key |
| `Cache.ReplaceExistingAsWrittenLosesUser` | saturn/utils.py:43-45 | re-storing a cached id loses its user as written, while the corrected store returns the new payload's user |
| `Cache.Repeated` | saturn/utils.py:29-30 | the calls of the nested loop as written open with one full pass over the payloads and hand `update_user` no other payload; a second outer iteration doubles them |
| `Cache.RepeatedLength` | saturn/utils.py:29-30 | `k` outer iterations make `k * \|data\|` calls of `update_user` |
| `Cache.AllOkCovers` | saturn/utils.py:29-30 | a call list that opens with a full pass over the payloads and holds no other payload is all accepted iff the payloads are |
| `Cache.CoversFailsInFirstPass` | saturn/utils.py:29-30 | when a payload is refused, such a call list raises in its first pass, at the same payload, with the same error and cache as one pass |
| `Cache.UpdateManyAsWritten` | saturn/utils.py:27-30 | the loop structure as written, run over the corrected `update_user` (the existing-id branch as written is `Cache.UpdateManyAsWrittenRaisesOnRevisit`'s subject): it raises exactly when one pass does, with the same error and cache; otherwise it ends with the same ids after `\|data\| * \|data\|` calls instead of `\|data\|` |
| `Cache.UpdateManyAsWrittenRevisits` | saturn/utils.py:29-30 | with two or more payloads, all accepted, the first call of the second pass is on `data[0]` and meets a cache in which the preceding full pass, run with the corrected `update_user`, has filed `data[0]`'s id, so it takes the existing-id branch |
| `Cache.UpdateManyAsWrittenRaisesOnRevisit` | saturn/utils.py:29-45 | with two or more payloads, all accepted, the corrected first pass files `data[0]`'s id, and `'user'` is filed after it iff it was filed before or is a payload's id; when it is not, the existing-id branch as written, which call `\|data\|` reaches, stamps the entry and raises `KeyError('user')`. With repeated or already-filed ids the code as written reaches that branch within the first pass instead |
| `Cache.FirstPassTakesNewIdBranch` | saturn/utils.py:29-42 | when the payload ids are distinct and none is filed beforehand, every call of the first pass meets a cache without its id, so it takes the new-id branch, where the code as written and the corrected store agree |

## Left out

- The aiohttp session, JSON encoding of requests, the event loop, and `run`, `start` and `close`. These are I/O and scheduling, with nothing to decide. A response is an input of the transition that awaits it.
- The `token_refresh_cycle` loop and its sleep. Each iteration is one `RequestRefresh` step. The loop has no exception handler, so the first refresh that raises ends it for good. That can be a failed status, a missing token key, or an error from `fetch_self` passed back through `gather`. `Client.Run` accepts further refresh inputs after such a failure, which is more than the source can reach.
- JSON numbers with a fraction part are not `Json.Value`s. So a float token such as `0.0` (falsy) and a float user id are not modelled.
- The concurrency of `asyncio.gather` in `dispatch`. A dispatch is the handler sequence it starts, and each handler's effect is a later input to `Client.Run`. An error raised by a handler (`fetch_self` inside the `token_refresh` dispatch) is not propagated to the refresh that dispatched it.
- Logging, `chats`, the `endpoints` module and the demo at the end of `client.py`.
- `datetime.fromisoformat` is a parameter of the timestamp and birthday accessors, and `datetime.now()` is the cache's own clock. That clock advances on every store, so the clock is kept per cache rather than shared.
- `Cache.UpdateManyAsWritten`: models the nested loop of utils.py:29-30 over the corrected `update_user`, not over the existing-id branch as written. Combining the two defects in one function would leave nothing to compare with one pass. What that branch does on the second pass is stated separately by `Cache.UpdateManyAsWrittenRaisesOnRevisit`.
- `Cache.UpdateUserEntryCount`: "a strictly later timestamp" is a property of the per-cache store counter. `datetime.now()` is a wall clock: two calls can return equal values, or an earlier one after a clock adjustment. So the source does not promise that an entry's timestamp strictly increases.
- `timedelta.total_seconds()` returns a float. Durations are whole days and seconds, and intervals are integers. The source never checks that an interval is positive, and neither does the model.
- `Cache.Lookup`: Python hashes `True` and `1` alike, so they find the same entry. The model treats them as distinct keys.
- `Cache.UpdateUser`: in the source, an `update_user` that raises during decoding leaves the registry unchanged. That also holds here, because a failure returns no new cache. The shared mutable default `registry={}` of `UserCache.__init__` is not modelled: each `NewCache` is empty.
- `Cache.ToDict`: the source's shallow copy shares the entry dicts with the registry. Values here are immutable, so that aliasing cannot be observed.
- `Cache.Admit`: it raises the cache's not-ready error as intended. In the source, `ClientNotReadyError.__init__` has no `self` parameter, so constructing it raises `TypeError` instead (`saturn/exceptions.py` is not part of this model).
- The behaviour of the code takes precedence over its description wherever the two differ. They differ in these places:
  - `update_many` stops at the first payload that raises.
  - `on` for an undeclared event raises `KeyError` rather than creating the event.
  - The interval is stored unchecked.
  - A refresh body that lacks a token key raises `KeyError` after any earlier token assignment.
  - A refresh that raises ends the refresh cycle (saturn/client.py:70-73) instead of being retried at the next interval. `Client.RequestRefresh` models the failing step, and the end of the cycle is outside `Client.Run` (see the `token_refresh_cycle` line above).
  - A payload that lacks a key raises a plain `KeyError` naming that key (saturn/models.py:38-43, 55-84, 111-125), not a dedicated malformed-entity error. `Models.Pick`, `Models.DecodeBase` and `Models.DecodeClient` return that `KeyError`.
  - A failed refresh dispatches no `error` event: `request_refresh_token` (saturn/client.py:75-91) never dispatches one. `Client.RequestRefresh` dispatches nothing on failure.
  - `update_user` (saturn/utils.py:32-45) returns nothing, not the stored user. `Cache.UpdateUser` returns only the new cache, and `Cache.UpdateThenLookup` states what a later lookup finds.

## Findings

| source | as written | input that shows it | evidently intended | confidence | as-written member | corrected member |
|---|---|---|---|---|---|---|
| saturn/utils.py:33 | the guard reads `self.client.ready`, which `Client` never defines | any call of `update_user`, even with a client that has dispatched `ready` | guard on the client's `_ready_dispatched` flag | high, not executed | `Cache.ReadyCheckAsWritten` | `Cache.UpdateUser` |
| saturn/utils.py:44-45 | an existing id's entry is overwritten with a bare timestamp, then `self._registry['user'].update(data)` is called | only once utils.py:33 is corrected, since as written every call raises `AttributeError` there first (or with a client object on which the caller has set a truthy `ready`). Then a cache built with a pre-filled `registry` argument (utils.py:17) that holds an entry for the payload's id turns the entry into a bare timestamp and raises `KeyError('user')`; two `update_user` calls with the same id do the same once models.py:133-134 is corrected as well | replace the entry with a fresh user and timestamp | high, not executed | `Cache.ReplaceExistingAsWritten` | `Cache.UpdateUser` |
| saturn/utils.py:29-30 | `for x in data:` wraps a comprehension over the whole of `data` | two accepted payloads with distinct ids, once utils.py:33 and models.py:133-134 are corrected (as written every `update_user` call raises first): the second pass hands the first payload to `update_user` after its id is stored, which reaches the broken branch of utils.py:43-45 | one pass over `data` | high, not executed | `Cache.UpdateManyAsWrittenRaisesOnRevisit` | `Cache.UpdateMany` |
| saturn/models.py:133-134 | `User.__init__(*args, **kwargs)` has no `self`, so zero-argument `super()` raises | any payload, including a complete one | construct the user as `BaseUser` does | high, not executed | `Models.NewUserAsWritten` | `Models.DecodeBase` |
| saturn/models.py:69 | a trailing comma makes `city` a one-element tuple | `user_city` null: `city` is the truthy `(None,)` | `city` is the payload's value | high, not executed | `Models.CityAsWritten` | `Models.DecodeBaseRenamedKeys` |
| saturn/models.py:129 | `datetime.date()` is called without arguments, and `data` is not in scope | any user with a stored birthday string | parse the stored `_birthday` as an ISO date | high, not executed | `Models.BirthdayAsWritten` | `Models.Birthday` |

=== FILE: cache.dfy ===
/**
 * saturn/utils.py's `UserCache`: a registry from user id to an entry holding
 * the decoded user and the time it was stored.
 *
 * `datetime.now()` is replaced by the cache's own clock, which advances on
 * every store, so an entry's timestamp orders the stores. The client the cache
 * consults is passed to each call, since its ready flag changes over time.
 */
module Cache {
  import opened Wrappers
  import opened Json
  import opened Errors
  import opened Models
  import opened Client

  /** A registry entry: when it was stored and the user built from the payload. */
  datatype Entry = Entry(updated: nat, user: BaseUser)

  datatype UserCache = UserCache(registry: map<Value, Entry>, clock: nat)

  /** The cache invariant: every entry is filed under its user's id and was stored before the clock's reading. */
  ghost predicate Valid(c: UserCache)
  {
    forall k :: k in c.registry ==> c.registry[k].user.id == k && c.registry[k].updated < c.clock
  }

  /** `UserCache(client)`: an empty registry. */
  function NewCache(): (c: UserCache)
    ensures Valid(c) && |c.registry| == 0
  {
    UserCache(map[], 0)
  }

  /** `cache[key]`: the stored user, nothing for an absent id; an unhashable key raises `TypeError`. */
  function Lookup(c: UserCache, key: Value): (r: Result<Option<BaseUser>, Error>)
    ensures r.Success? <==> Hashable(key)
    ensures r.Failure? ==> r.error.TypeError?
    ensures r.Success? ==> (r.value == None <==> key !in c.registry)
    ensures r.Success? && key in c.registry ==> r.value == Some(c.registry[key].user)
  {
    if !Hashable(key) then Failure(TypeError("unhashable type"))
    else if key in c.registry then Success(Some(c.registry[key].user))
    else Success(None)
  }

  /**
   * The checks `update_user` makes before storing anything: the client is
   * ready, the payload has an id Python can hash, and it decodes as a user.
   * Returns the id and the user to store.
   */
  function Admit(client: ClientState, data: Raw): (r: Result<(Value, BaseUser), Error>)
    ensures !client.readyDispatched ==> r == Failure(ClientNotReady)
    ensures client.readyDispatched && "id" !in data ==> r == Failure(KeyError("id"))
    ensures r.Success? ==> "id" in data && r.value.0 == data["id"] && r.value.1.id == r.value.0
  {
    if !client.readyDispatched then Failure(ClientNotReady)
    else if "id" !in data then Failure(KeyError("id"))
    else if !Hashable(data["id"]) then Failure(TypeError("unhashable type"))
    else match DecodeBase(data)
      case Failure(e) => Failure(e)
      case Success(u) =>
        DecodeBaseKeyAttributes(data);
        Success((data["id"], u))
  }

  /**
   * What `Admit` accepts and returns in terms of the decoder: a ready client,
   * a hashable id, and a payload `DecodeBase` accepts; the result is that id
   * and that user.
   */
  lemma AdmitDecodes(client: ClientState, data: Raw)
    ensures Admit(client, data).Success? <==>
      client.readyDispatched && "id" in data && Hashable(data["id"]) && DecodeBase(data).Success?
    ensures Admit(client, data).Success? ==> Admit(client, data).value == (data["id"], DecodeBase(data).value)
    ensures client.readyDispatched && "id" in data && Hashable(data["id"]) && DecodeBase(data).Failure? ==>
      Admit(client, data) == Failure(DecodeBase(data).error)
  {
  }

  /** Whether `update_user` stores `data`; it does not depend on what the cache holds. */
  predicate Accepts(client: ClientState, data: Raw)
  {
    Admit(client, data).Success?
  }

  /**
   * Filing `u` under `id` at the current clock reading: the id gains or
   * replaces one entry, every other entry is left as it was, and the clock
   * advances.
   */
  function Store(c: UserCache, id: Value, u: BaseUser): (r: UserCache)
    ensures r.registry.Keys == c.registry.Keys + {id}
    ensures r.registry[id] == Entry(c.clock, u)
    ensures forall k :: k in c.registry && k != id ==> r.registry[k] == c.registry[k]
    ensures r.clock == c.clock + 1
    ensures Valid(c) && u.id == id ==> Valid(r)
  {
    UserCache(c.registry[id := Entry(c.clock, u)], c.clock + 1)
  }

  /**
   * `update_user(data)`: stores the user decoded from `data` under its id,
   * stamped with the clock. A new id gains an entry; an existing id has its
   * entry replaced wholesale (see `ReplaceExistingAsWritten` for the code as
   * written). Every other entry is left as it was.
   */
  function UpdateUser(c: UserCache, client: ClientState, data: Raw): (r: Result<UserCache, Error>)
    ensures r.Success? <==> Accepts(client, data)
    ensures r.Failure? ==> r.error == Admit(client, data).error
    ensures r.Success? ==> r.value == Store(c, Admit(client, data).value.0, Admit(client, data).value.1)
    ensures r.Success? && Valid(c) ==> Valid(r.value)
  {
    match Admit(client, data)
    case Failure(e) => Failure(e)
    case Success((id, u)) => Success(Store(c, id, u))
  }

  /**
   * A stored payload is read back whole: looking its id up returns the user
   * decoded from that payload, with nothing merged from an earlier snapshot.
   */
  lemma UpdateThenLookup(c: UserCache, client: ClientState, data: Raw)
    requires UpdateUser(c, client, data).Success?
    ensures "id" in data && DecodeBase(data).Success?
    ensures Lookup(UpdateUser(c, client, data).value, data["id"]) == Success(Some(DecodeBase(data).value))
  {
    AdmitDecodes(client, data);
  }

  /**
   * Storing a user under an id already present replaces its entry with a
   * strictly later timestamp; under a new id it adds exactly one entry.
   */
  lemma UpdateUserEntryCount(c: UserCache, client: ClientState, data: Raw)
    requires Valid(c)
    requires UpdateUser(c, client, data).Success?
    ensures "id" in data
    ensures data["id"] in c.registry ==>
      UpdateUser(c, client, data).value.registry[data["id"]].updated > c.registry[data["id"]].updated
    ensures data["id"] in c.registry ==> |UpdateUser(c, client, data).value.registry| == |c.registry|
    ensures data["id"] !in c.registry ==> |UpdateUser(c, client, data).value.registry| == |c.registry| + 1
  {
    var r := UpdateUser(c, client, data).value;
    var id := data["id"];
    if id in c.registry {
      assert r.registry.Keys == c.registry.Keys;
    } else {
      assert r.registry.Keys == c.registry.Keys + {id};
    }
  }

  /** The ids of the stored pairs. */
  function PairIds(ps: seq<(Value, BaseUser)>): (ids: set<Value>)
    ensures forall j :: 0 <= j < |ps| ==> ps[j].0 in ids
    ensures forall k :: k in ids ==> exists j :: 0 <= j < |ps| && ps[j].0 == k
  {
    set j | 0 <= j < |ps| :: ps[j].0
  }

  /** Storing `ps` one pair after another, in order, starting from `c`. */
  function StoreAll(c: UserCache, ps: seq<(Value, BaseUser)>): (r: UserCache)
    ensures r.clock == c.clock + |ps|
  {
    if |ps| == 0 then c
    else
      var last := ps[|ps| - 1];
      Store(StoreAll(c, ps[..|ps| - 1]), last.0, last.1)
  }

  /** The registry after storing `ps` holds the ids it held before and the ids of `ps`, and nothing else. */
  lemma {:induction false} StoreAllKeys(c: UserCache, ps: seq<(Value, BaseUser)>)
    ensures StoreAll(c, ps).registry.Keys == c.registry.Keys + PairIds(ps)
  {
    if |ps| > 0 {
      var init := ps[..|ps| - 1];
      StoreAllKeys(c, init);
      assert PairIds(ps) == PairIds(init) + {ps[|ps| - 1].0} by {
        forall k | k in PairIds(ps) ensures k in PairIds(init) + {ps[|ps| - 1].0} {
          var j :| 0 <= j < |ps| && ps[j].0 == k;
          if j < |ps| - 1 {
            assert init[j] == ps[j];
          }
        }
        forall k | k in PairIds(init) ensures k in PairIds(ps) {
          var j :| 0 <= j < |init| && init[j].0 == k;
          assert ps[j] == init[j];
        }
      }
    }
  }

  /** An id none of `ps` carries keeps its entry. */
  lemma {:induction false} StoreAllFrame(c: UserCache, ps: seq<(Value, BaseUser)>, k: Value)
    requires k in c.registry && k !in PairIds(ps)
    ensures k in StoreAll(c, ps).registry && StoreAll(c, ps).registry[k] == c.registry[k]
  {
    if |ps| > 0 {
      var init := ps[..|ps| - 1];
      forall j | 0 <= j < |init| ensures init[j].0 != k {
        assert init[j] == ps[j];
      }
      StoreAllFrame(c, init, k);
    }
  }

  /** Pair `i` is the last in `ps` to carry its id. */
  predicate LastWithItsId(ps: seq<(Value, BaseUser)>, i: nat)
    requires i < |ps|
  {
    forall j :: i < j < |ps| ==> ps[j].0 != ps[i].0
  }

  /**
   * The last write wins: after storing `ps`, the entry of an id holds the
   * user of the last pair carrying it, stamped with the clock reading at
   * the time that pair was stored.
   */
  lemma {:induction false} StoreAllLastWriteWins(c: UserCache, ps: seq<(Value, BaseUser)>, i: nat)
    requires i < |ps| && LastWithItsId(ps, i)
    ensures ps[i].0 in StoreAll(c, ps).registry
    ensures StoreAll(c, ps).registry[ps[i].0] == Entry(c.clock + i, ps[i].1)
  {
    var init := ps[..|ps| - 1];
    if i < |ps| - 1 {
      assert ps[|ps| - 1].0 != ps[i].0;
      assert init[i] == ps[i];
      forall j | i < j < |init| ensures init[j].0 != init[i].0 {
        assert init[j] == ps[j];
      }
      StoreAllLastWriteWins(c, init, i);
    }
  }

  /** Storing pairs each filed under its user's id keeps the cache invariant. */
  lemma {:induction false} StoreAllValid(c: UserCache, ps: seq<(Value, BaseUser)>)
    requires Valid(c)
    requires forall j :: 0 <= j < |ps| ==> ps[j].1.id == ps[j].0
    ensures Valid(StoreAll(c, ps))
  {
    if |ps| > 0 {
      var init := ps[..|ps| - 1];
      forall j | 0 <= j < |init| ensures init[j].1.id == init[j].0 {
        assert init[j] == ps[j];
      }
      StoreAllValid(c, init);
    }
  }

  /** What `Admit` makes of each payload of `data`, in order. */
  function AdmitEach(client: ClientState, data: seq<Raw>): (rs: seq<Result<(Value, BaseUser), Error>>)
    ensures |rs| == |data|
    ensures forall j :: 0 <= j < |data| ==> rs[j] == Admit(client, data[j])
  {
    seq(|data|, j requires 0 <= j < |data| => Admit(client, data[j]))
  }

  /** The first `n` results are all successes. */
  predicate AllOk<T, E>(rs: seq<Result<T, E>>, n: nat)
    requires n <= |rs|
  {
    forall j :: 0 <= j < n ==> rs[j].Success?
  }

  /** The values of the first `n` results, all of which succeeded. */
  function Oks<T, E>(rs: seq<Result<T, E>>, n: nat): (vs: seq<T>)
    requires n <= |rs| && AllOk(rs, n)
    ensures |vs| == n
    ensures forall j :: 0 <= j < n ==> vs[j] == rs[j].value
  {
    if n == 0 then [] else Oks(rs, n - 1) + [rs[n - 1].value]
  }

  /** One more success extends the values by that success's value. */
  lemma OksStep<T, E>(rs: seq<Result<T, E>>, i: nat)
    requires i < |rs| && AllOk(rs, i) && rs[i].Success?
    ensures AllOk(rs, i + 1)
    ensures Oks(rs, i + 1)[..i] == Oks(rs, i) && Oks(rs, i + 1)[i] == rs[i].value
  {
  }

  /** Storing payload `i` after the ones before it: it either fails with `Admit`'s error or extends the stores by one. */
  lemma UpdateUserStep(c: UserCache, r: UserCache, client: ClientState, data: seq<Raw>, i: nat)
    requires i < |data| && AllOk(AdmitEach(client, data), i)
    requires r == StoreAll(c, Oks(AdmitEach(client, data), i))
    ensures UpdateUser(r, client, data[i]).Failure? ==> AdmitEach(client, data)[i] == Failure(UpdateUser(r, client, data[i]).error)
    ensures UpdateUser(r, client, data[i]).Success? ==>
      && AllOk(AdmitEach(client, data), i + 1)
      && UpdateUser(r, client, data[i]).value == StoreAll(c, Oks(AdmitEach(client, data), i + 1))
  {
    var rs := AdmitEach(client, data);
    if UpdateUser(r, client, data[i]).Success? {
      assert rs[i] == Success((Admit(client, data[i]).value.0, Admit(client, data[i]).value.1));
      OksStep(rs, i);
    }
  }

  /**
   * The loop of `update_many` over the last `rest` payloads of `data`, with
   * `r` the cache after the payloads before them: each payload goes through
   * `update_user` in list order, and the first one that raises ends the loop
   * with its error.
   */
  function UpdateFrom(r: UserCache, client: ClientState, data: seq<Raw>, rest: nat): (res: (UserCache, Outcome<Error>))
    requires rest <= |data|
    decreases rest
  {
    if rest == 0 then (r, Pass)
    else match UpdateUser(r, client, data[|data| - rest])
      case Failure(e) => (r, Fail(e))
      case Success(next) => UpdateFrom(next, client, data, rest - 1)
  }

  /**
   * Continuing the loop at payload `i`, having stored what `Admit` made of
   * the payloads before it, ends by storing what it makes of all of them,
   * or at the first payload from `i` on that it refuses.
   */
  lemma {:induction false} UpdateFromStores(c: UserCache, r: UserCache, client: ClientState, data: seq<Raw>, i: nat)
    requires i <= |data| && AllOk(AdmitEach(client, data), i)
    requires r == StoreAll(c, Oks(AdmitEach(client, data), i))
    ensures UpdateFrom(r, client, data, |data| - i).1.Pass? <==> AllOk(AdmitEach(client, data), |data|)
    ensures UpdateFrom(r, client, data, |data| - i).1.Pass? ==>
      UpdateFrom(r, client, data, |data| - i).0 == StoreAll(c, Oks(AdmitEach(client, data), |data|))
    ensures UpdateFrom(r, client, data, |data| - i).1.Fail? ==> exists n :: (i <= n < |data| && AllOk(AdmitEach(client, data), n)
      && AdmitEach(client, data)[n] == Failure(UpdateFrom(r, client, data, |data| - i).1.error)
      && UpdateFrom(r, client, data, |data| - i).0 == StoreAll(c, Oks(AdmitEach(client, data), n)))
    decreases |data| - i
  {
    if i < |data| {
      UpdateUserStep(c, r, client, data, i);
      var step := UpdateUser(r, client, data[i]);
      if step.Success? {
        UpdateFromStores(c, step.value, client, data, i + 1);
      } else {
        assert !AdmitEach(client, data)[i].Success?;
      }
    }
  }

  /**
   * `update_many(data)`, read as one pass over `data` (see
   * `UpdateManyAsWritten` for the nested loop as written). Payloads
   * are stored in list order; the first refused payload raises its error
   * with the payloads before it stored, and the ones after it are not
   * attempted.
   */
  function UpdateMany(c: UserCache, client: ClientState, data: seq<Raw>): (res: (UserCache, Outcome<Error>))
    ensures res.1.Pass? <==> AllOk(AdmitEach(client, data), |data|)
    ensures res.1.Pass? ==> res.0 == StoreAll(c, Oks(AdmitEach(client, data), |data|))
    ensures res.1.Fail? ==> exists n :: (0 <= n < |data| && AllOk(AdmitEach(client, data), n)
      && AdmitEach(client, data)[n] == Failure(res.1.error)
      && res.0 == StoreAll(c, Oks(AdmitEach(client, data), n)))
  {
    UpdateFromStores(c, c, client, data, 0);
    UpdateFrom(c, client, data, |data|)
  }

  /** Every user `update_many` stores is filed under its own id, so the cache invariant survives it. */
  lemma UpdateManyKeepsValid(c: UserCache, client: ClientState, data: seq<Raw>, n: nat)
    requires Valid(c)
    requires n <= |data| && AllOk(AdmitEach(client, data), n)
    ensures Valid(StoreAll(c, Oks(AdmitEach(client, data), n)))
  {
    StoreAllValid(c, Oks(AdmitEach(client, data), n));
  }

  /** Pair `j` of what `update_many` stores is payload `j`'s id and the user `DecodeBase` reads from it. */
  lemma UpdateManyStoresDecoded(client: ClientState, data: seq<Raw>, n: nat, j: nat)
    requires n <= |data| && AllOk(AdmitEach(client, data), n) && j < n
    ensures "id" in data[j] && DecodeBase(data[j]).Success?
    ensures Oks(AdmitEach(client, data), n)[j] == (data[j]["id"], DecodeBase(data[j]).value)
  {
    AdmitDecodes(client, data[j]);
  }

  /**
   * Every payload of a completed `update_many` is visited: its id ends up in
   * the registry, next to the ids held before.
   */
  lemma UpdateManyVisitsEveryId(c: UserCache, client: ClientState, data: seq<Raw>)
    requires UpdateMany(c, client, data).1.Pass?
    ensures forall j :: 0 <= j < |data| ==> "id" in data[j] && data[j]["id"] in UpdateMany(c, client, data).0.registry
    ensures c.registry.Keys <= UpdateMany(c, client, data).0.registry.Keys
  {
    var ps := Oks(AdmitEach(client, data), |data|);
    StoreAllKeys(c, ps);
    forall j | 0 <= j < |data| ensures "id" in data[j] && data[j]["id"] in UpdateMany(c, client, data).0.registry {
      UpdateManyStoresDecoded(client, data, |data|, j);
    }
  }

  /** `to_dict()`: a copy holding the same ids, each with the same entry. */
  function ToDict(c: UserCache): (d: map<Value, Entry>)
    ensures d.Keys == c.registry.Keys
    ensures forall k :: k in d ==> d[k] == c.registry[k]
  {
    map k | k in c.registry :: c.registry[k]
  }

  // ---------------------------------------------------------------------------
  // Source defects: the code as written beside the corrected reading
  // ---------------------------------------------------------------------------

  /**
   * The guard of `update_user` as written: it reads `client.ready`. Had
   * `Client` an attribute of that name, the guard would test it (here taken
   * to mirror the ready flag); it has none, so the read raises
   * `AttributeError` whatever state the client is in.
   */
  function ReadyCheckAsWritten(client: ClientState): (r: Outcome<Error>)
    ensures r == Fail(AttributeError("ready"))
  {
    if "ready" in ClientAttributes then
      if client.readyDispatched then Pass else Fail(ClientNotReady)
    else Fail(AttributeError("ready"))
  }

  /** A client that has dispatched `ready` fails the guard as written, and passes the corrected one. */
  lemma ReadyCheckAsWrittenRejectsReadyClient(c: UserCache, client: ClientState, data: Raw)
    requires client.readyDispatched
    requires "id" in data && Hashable(data["id"]) && HasKeys(data, BaseKeys)
    ensures ReadyCheckAsWritten(client).Fail?
    ensures UpdateUser(c, client, data).Success?
  {
    AdmitDecodes(client, data);
  }

  /** A registry value as the code as written can leave it. */
  datatype Slot =
    /** The entry dict `{'updated': ..., 'user': ...}`. */
    | Stored(entry: Entry)
    /** A bare timestamp written over an entry. */
    | Stamp(at: nat)
    /** An entry dict into which `dict.update` merged a raw payload. */
    | Merged(entry: Entry, extra: Raw)

  /**
   * The existing-id branch of `update_user` as written: it overwrites the
   * entry with a bare timestamp, then calls `.update(data)` on the value
   * filed under the string key `'user'`.
   */
  function ReplaceExistingAsWritten(registry: map<Value, Slot>, id: Value, data: Raw, now: nat): (r: (map<Value, Slot>, Outcome<Error>))
    requires id in registry
    ensures r.0.Keys == registry.Keys
    ensures id != Str("user") ==> r.0[id] == Stamp(now)
    ensures Str("user") !in registry ==> r == (registry[id := Stamp(now)], Fail(KeyError("user")))
    ensures r.1.Pass? ==> id != Str("user") && Str("user") in registry && !registry[Str("user")].Stamp?
  {
    var stamped := registry[id := Stamp(now)];
    var userKey := Str("user");
    if userKey !in stamped then (stamped, Fail(KeyError("user")))
    else match stamped[userKey]
      case Stamp(_) => (stamped, Fail(AttributeError("update")))
      case Stored(e) => (stamped[userKey := Merged(e, data)], Pass)
      case Merged(e, extra) => (stamped[userKey := Merged(e, extra + data)], Pass)
  }

  /**
   * Re-storing a user whose id is cached loses the cached user as written: its
   * slot becomes a bare timestamp and the call raises `KeyError('user')`. The
   * corrected `UpdateUser` keeps an entry whose user is the new payload's.
   */
  lemma ReplaceExistingAsWrittenLosesUser(registry: map<Value, Slot>, data: Raw, now: nat,
                                          c: UserCache, client: ClientState)
    requires "id" in data && data["id"] in registry && registry[data["id"]].Stored?
    requires Str("user") !in registry
    requires data["id"] in c.registry && UpdateUser(c, client, data).Success?
    ensures ReplaceExistingAsWritten(registry, data["id"], data, now).0[data["id"]] == Stamp(now)
    ensures ReplaceExistingAsWritten(registry, data["id"], data, now).1 == Fail(KeyError("user"))
    ensures DecodeBase(data).Success?
    ensures Lookup(UpdateUser(c, client, data).value, data["id"]) == Success(Some(DecodeBase(data).value))
  {
    UpdateThenLookup(c, client, data);
  }

  /** `calls` opens with one full pass over `data` and hands `update_user` no payload outside `data`. */
  predicate Covers(calls: seq<Raw>, data: seq<Raw>)
  {
    |data| <= |calls| && calls[..|data|] == data && forall n :: 0 <= n < |calls| ==> calls[n] in data
  }

  /**
   * The payloads the nested loop of `update_many` as written hands to
   * `update_user`, in call order: the inner comprehension walks the whole
   * of `data` once for each of the `k` outer iterations.
   */
  function Repeated(data: seq<Raw>, k: nat): (calls: seq<Raw>)
    ensures k == 0 ==> calls == []
    ensures k > 0 ==> Covers(calls, data)
    ensures k > 1 ==> 2 * |data| <= |calls|
  {
    if k == 0 then [] else data + Repeated(data, k - 1)
  }

  /** The nested loop makes `k * |data|` calls. */
  lemma {:induction false} RepeatedLength(data: seq<Raw>, k: nat)
    ensures |Repeated(data, k)| == k * |data|
  {
    if k > 0 {
      RepeatedLength(data, k - 1);
      assert k * |data| == |data| + (k - 1) * |data|;
    }
  }

  /** Every call is on some payload of `data`, so `Admit` makes of it what it makes of that payload. */
  lemma CoversAdmits(client: ClientState, data: seq<Raw>, calls: seq<Raw>, n: nat)
    requires Covers(calls, data) && n < |calls|
    ensures exists j :: 0 <= j < |data| && AdmitEach(client, calls)[n] == AdmitEach(client, data)[j]
  {
    assert calls[n] in data;
    var j :| 0 <= j < |data| && data[j] == calls[n];
    assert AdmitEach(client, calls)[n] == AdmitEach(client, data)[j];
  }

  /** The first `|data|` calls are the payloads themselves, so `Admit` makes the same of them. */
  lemma CoversPrefix(client: ClientState, data: seq<Raw>, calls: seq<Raw>, j: nat)
    requires Covers(calls, data) && j < |data|
    ensures AdmitEach(client, calls)[j] == AdmitEach(client, data)[j]
  {
    assert calls[..|data|][j] == data[j];
  }

  /** The calls are all accepted exactly when the payloads are. */
  lemma AllOkCovers(client: ClientState, data: seq<Raw>, calls: seq<Raw>)
    requires Covers(calls, data)
    ensures AllOk(AdmitEach(client, calls), |calls|) <==> AllOk(AdmitEach(client, data), |data|)
  {
    if AllOk(AdmitEach(client, data), |data|) {
      forall n | 0 <= n < |calls| ensures AdmitEach(client, calls)[n].Success? {
        CoversAdmits(client, data, calls, n);
      }
    }
    if AllOk(AdmitEach(client, calls), |calls|) {
      forall j | 0 <= j < |data| ensures AdmitEach(client, data)[j].Success? {
        CoversPrefix(client, data, calls, j);
      }
    }
  }

  /** When every payload is accepted, the calls store only ids of the payloads. */
  lemma PairIdsCoversLeft(client: ClientState, data: seq<Raw>, calls: seq<Raw>)
    requires Covers(calls, data) && AllOk(AdmitEach(client, calls), |calls|) && AllOk(AdmitEach(client, data), |data|)
    ensures PairIds(Oks(AdmitEach(client, calls), |calls|)) <= PairIds(Oks(AdmitEach(client, data), |data|))
  {
    var many := Oks(AdmitEach(client, calls), |calls|);
    var once := Oks(AdmitEach(client, data), |data|);
    forall id | id in PairIds(many) ensures id in PairIds(once) {
      var n :| 0 <= n < |many| && many[n].0 == id;
      CoversAdmits(client, data, calls, n);
      var j :| 0 <= j < |data| && AdmitEach(client, calls)[n] == AdmitEach(client, data)[j];
      assert once[j] == many[n];
    }
  }

  /** When every payload is accepted, the calls store every id of the payloads. */
  lemma PairIdsCoversRight(client: ClientState, data: seq<Raw>, calls: seq<Raw>)
    requires Covers(calls, data) && AllOk(AdmitEach(client, calls), |calls|) && AllOk(AdmitEach(client, data), |data|)
    ensures PairIds(Oks(AdmitEach(client, data), |data|)) <= PairIds(Oks(AdmitEach(client, calls), |calls|))
  {
    var many := Oks(AdmitEach(client, calls), |calls|);
    var once := Oks(AdmitEach(client, data), |data|);
    forall id | id in PairIds(once) ensures id in PairIds(many) {
      var j :| 0 <= j < |once| && once[j].0 == id;
      CoversPrefix(client, data, calls, j);
      assert many[j] == once[j];
    }
  }

  /**
   * Two result sequences that agree on a prefix have their first failure at
   * the same place when it lies in that prefix, with the same successes
   * before it.
   */
  lemma FirstFailureInPrefix<T, E>(rc: seq<Result<T, E>>, rd: seq<Result<T, E>>, n: nat, m: nat)
    requires |rd| <= |rc| && forall j :: 0 <= j < |rd| ==> rc[j] == rd[j]
    requires n < |rc| && AllOk(rc, n) && rc[n].Failure?
    requires m < |rd| && AllOk(rd, m) && rd[m].Failure?
    ensures n == m && rc[n] == rd[m] && Oks(rc, n) == Oks(rd, m)
  {
  }

  /**
   * When a payload is refused, the calls raise within their first pass, at
   * the same payload, with the same error and cache, as one pass does.
   */
  lemma CoversFailsInFirstPass(c: UserCache, client: ClientState, data: seq<Raw>, calls: seq<Raw>)
    requires Covers(calls, data) && !AllOk(AdmitEach(client, data), |data|)
    ensures UpdateMany(c, client, calls) == UpdateMany(c, client, data)
  {
    var rc := AdmitEach(client, calls);
    var rd := AdmitEach(client, data);
    AllOkCovers(client, data, calls);
    var many := UpdateMany(c, client, calls);
    var once := UpdateMany(c, client, data);
    var n :| 0 <= n < |calls| && AllOk(rc, n) && rc[n] == Failure(many.1.error) && many.0 == StoreAll(c, Oks(rc, n));
    var m :| 0 <= m < |data| && AllOk(rd, m) && rd[m] == Failure(once.1.error) && once.0 == StoreAll(c, Oks(rd, m));
    forall j | 0 <= j < |data| ensures rc[j] == rd[j] {
      CoversPrefix(client, data, calls, j);
    }
    FirstFailureInPrefix(rc, rd, n, m);
  }

  /**
   * The loop structure of `update_many` as written, over the corrected
   * `update_user`: the one-pass loop over the repeated call list. It raises
   * exactly when the one-pass reading does, with the same error and cache;
   * otherwise it ends with the same ids, after `|data| * |data|` calls of
   * `update_user` instead of `|data|`. With the existing-id branch as
   * written, the second pass raises instead (`UpdateManyAsWrittenRaisesOnRevisit`).
   */
  function UpdateManyAsWritten(c: UserCache, client: ClientState, data: seq<Raw>): (res: (UserCache, Outcome<Error>))
    ensures res.1.Pass? <==> AllOk(AdmitEach(client, data), |data|)
    ensures res.1.Fail? ==> res == UpdateMany(c, client, data)
    ensures res.1.Pass? ==> res.0.registry.Keys == UpdateMany(c, client, data).0.registry.Keys
    ensures res.1.Pass? ==> res.0.clock == c.clock + |data| * |data|
  {
    var calls := Repeated(data, |data|);
    assert Covers(calls, data);
    AllOkCovers(client, data, calls);
    RepeatedLength(data, |data|);
    if AllOk(AdmitEach(client, data), |data|) then
      PairIdsCoversLeft(client, data, calls);
      PairIdsCoversRight(client, data, calls);
      StoreAllKeys(c, Oks(AdmitEach(client, calls), |calls|));
      StoreAllKeys(c, Oks(AdmitEach(client, data), |data|));
      UpdateMany(c, client, calls)
    else
      CoversFailsInFirstPass(c, client, data, calls);
      UpdateMany(c, client, calls)
  }

  /**
   * With two or more payloads, all accepted, call number `|data|` of the
   * nested loop (the first of its second pass) hands `data[0]` to
   * `update_user` again, and the calls before it, a full pass over `data`,
   * have filed that payload's id: the call takes the existing-id branch
   * (`ReplaceExistingAsWritten`), even when every id in the list is distinct.
   */
  lemma UpdateManyAsWrittenRevisits(c: UserCache, client: ClientState, data: seq<Raw>)
    requires |data| >= 2 && AllOk(AdmitEach(client, data), |data|)
    ensures |data| < |Repeated(data, |data|)| && Repeated(data, |data|)[|data|] == data[0]
    ensures Repeated(data, |data|)[..|data|] == data
    ensures "id" in data[0] && data[0]["id"] in UpdateMany(c, client, Repeated(data, |data|)[..|data|]).0.registry
  {
    SecondPassOpensWithFirst(data);
    UpdateManyVisitsEveryId(c, client, data);
  }

  /** The second pass of the nested loop opens with `data[0]`, after a full first pass. */
  lemma SecondPassOpensWithFirst(data: seq<Raw>)
    requires |data| >= 2
    ensures |data| < |Repeated(data, |data|)| && Repeated(data, |data|)[|data|] == data[0]
    ensures Repeated(data, |data|)[..|data|] == data
  {
    var calls := Repeated(data, |data|);
    var later := Repeated(data, |data| - 1);
    assert calls == data + later;
    assert calls[|data|] == later[..|data|][0];
  }

  /** A registry as the code as written sees it: every id holds a stored entry dict. */
  function Slots(registry: map<Value, Entry>): (s: map<Value, Slot>)
    ensures s.Keys == registry.Keys
    ensures forall k :: k in s ==> s[k] == Stored(registry[k])
  {
    map k | k in registry :: Stored(registry[k])
  }

  /**
   * With distinct payload ids, none filed beforehand, call `j` of the first
   * pass meets a cache that has not filed its id: every call of the first
   * pass takes the new-id branch of utils.py:38-42, where the code as written
   * and the corrected `Store` agree. For such lists the corrected first pass
   * of `UpdateManyAsWrittenRaisesOnRevisit` is the first pass as written.
   */
  lemma FirstPassTakesNewIdBranch(c: UserCache, client: ClientState, data: seq<Raw>, j: nat)
    requires j < |data| && AllOk(AdmitEach(client, data), j)
    requires forall i, k :: 0 <= i < k < |data| ==> "id" in data[i] && "id" in data[k] && data[i]["id"] != data[k]["id"]
    requires forall i :: 0 <= i < |data| ==> "id" in data[i] && data[i]["id"] !in c.registry
    ensures UpdateMany(c, client, data[..j]).1.Pass?
    ensures "id" in data[j] && data[j]["id"] !in UpdateMany(c, client, data[..j]).0.registry
  {
    var p := data[..j];
    assert forall i :: 0 <= i < j ==> AdmitEach(client, p)[i] == AdmitEach(client, data)[i];
    var ps := Oks(AdmitEach(client, p), j);
    StoreAllKeys(c, ps);
    forall i | 0 <= i < |ps| ensures ps[i].0 != data[j]["id"] {
      UpdateManyStoresDecoded(client, p, j, i);
      assert p[i] == data[i];
    }
  }

  /**
   * Call `|data|` of the nested loop, with the existing-id branch as written:
   * after a completed first pass it hands `data[0]`, whose id is filed, to
   * the branch of utils.py:43-45. Unless `'user'` is itself a filed id (a
   * prior one or a payload's), that branch stamps the entry and raises
   * `KeyError('user')`, so the second pass never completes. The first pass
   * here is the corrected one; when the ids are distinct and new, it is also
   * the first pass as written (`FirstPassTakesNewIdBranch`). Otherwise the
   * code as written reaches utils.py:43-45 already within the first pass.
   */
  lemma UpdateManyAsWrittenRaisesOnRevisit(c: UserCache, client: ClientState, data: seq<Raw>)
    requires |data| >= 2 && AllOk(AdmitEach(client, data), |data|)
    ensures "id" in data[0] && data[0]["id"] in UpdateMany(c, client, data).0.registry
    ensures Str("user") in UpdateMany(c, client, data).0.registry <==>
      Str("user") in c.registry || exists j :: 0 <= j < |data| && "id" in data[j] && data[j]["id"] == Str("user")
    ensures Str("user") !in UpdateMany(c, client, data).0.registry ==>
      var first := UpdateMany(c, client, data).0;
      ReplaceExistingAsWritten(Slots(first.registry), data[0]["id"], data[0], first.clock)
        == (Slots(first.registry)[data[0]["id"] := Stamp(first.clock)], Fail(KeyError("user")))
  {
    var ps := Oks(AdmitEach(client, data), |data|);
    UpdateManyVisitsEveryId(c, client, data);
    StoreAllKeys(c, ps);
    if Str("user") in PairIds(ps) {
      var j :| 0 <= j < |ps| && ps[j].0 == Str("user");
      UpdateManyStoresDecoded(client, data, |data|, j);
    }
    forall j | 0 <= j < |data| && "id" in data[j] && data[j]["id"] == Str("user")
      ensures Str("user") in PairIds(ps)
    {
      UpdateManyStoresDecoded(client, data, |data|, j);
    }
  }
}

=== FILE: client.dfy ===
/**
 * The runtime state of saturn/client.py's `Client` and its deterministic
 * transitions: construction, handler registration, dispatch, the token
 * refresh, the self-profile fetch and header composition.
 *
 * The network is a parameter: each transition that awaits a response receives
 * the response as an argument. A dispatch is modelled as the handler sequence
 * it invokes; the effects of invoking those handlers are later transitions.
 */
module Client {
  import opened Wrappers
  import opened Json
  import opened Errors
  import opened Models

  /** A registered event handler: the runtime's own `fetch_self`, or an application callback. */
  datatype Handler = FetchSelf | Callback(id: nat)

  /** Event name to the handlers registered for it, in registration order. */
  type Registry = map<string, seq<Handler>>

  /** The refresh interval as passed to the constructor: a number of seconds or a `timedelta`. */
  datatype IntervalArg =
    | Seconds(n: int)
    | Duration(days: int, seconds: int)

  /** The constructor's default interval, `timedelta(hours=2)`. */
  const DefaultInterval: IntervalArg := Duration(0, 2 * 60 * 60)

  datatype ClientState = ClientState(
    accessToken: Value,
    refreshToken: Value,
    interval: int,
    handlers: Registry,
    readyDispatched: bool,
    user: Option<ClientUser>)

  /** The events the constructor declares. */
  const EventNames: set<string> := {"ready", "message", "error", "token_refresh", "start"}

  /**
   * The attributes a `Client` instance has: those `__init__` assigns, the
   * properties the class declares and its methods.
   */
  const ClientAttributes: set<string> := {
    "_access_token", "_refresh_token", "_token_refresh_interval", "loop", "session", "_logger",
    "chats", "event_handlers", "_default_headers", "_ready_dispatched", "user",
    "access_token", "refresh_token", "token_refresh_interval", "_authorization_header",
    "run", "start", "token_refresh_cycle", "request_refresh_token", "_request", "fetch_self",
    "close", "dispatch", "on"}

  /** The headers sent with every request. */
  const DefaultHeaders: map<string, string> := map[
    "Accept" := "application/json, text/plain, */*",
    "Accept-Language" := "en-US,en;q=0.5",
    "Content-Type" := "application/json;charset=utf-8"]

  // ---------------------------------------------------------------------------
  // Construction
  // ---------------------------------------------------------------------------

  /**
   * The stored interval: a number verbatim, a duration as its total seconds
   * (`timedelta.total_seconds()`, a day being 86400 seconds).
   */
  function IntervalSeconds(arg: IntervalArg): (n: int)
    ensures arg.Seconds? ==> n == arg.n
    ensures arg.Duration? ==> n == arg.days * 86400 + arg.seconds
    ensures arg == DefaultInterval ==> n == 7200
  {
    match arg
    case Seconds(n) => n
    case Duration(days, seconds) => days * 24 * 60 * 60 + seconds
  }

  /**
   * A duration and the plain number of seconds it spans configure the same
   * client: the constructed state keeps no trace of which form was passed.
   * Without an interval argument the client refreshes every two hours.
   */
  lemma DurationConfiguresSeconds(access: string, refresh: string, days: int, seconds: int)
    ensures Init(access, refresh, Duration(days, seconds)) == Init(access, refresh, Seconds(days * 86400 + seconds))
    ensures Init(access, refresh).interval == 7200
  {
  }

  /** `Client(access_token, refresh_token, token_refresh_interval)`. */
  function Init(access: string, refresh: string, interval: IntervalArg := DefaultInterval): (s: ClientState)
    ensures s.handlers.Keys == EventNames
    ensures forall e :: e in s.handlers ==> s.handlers[e] == (if e == "token_refresh" then [FetchSelf] else [])
    ensures s.accessToken == Str(access) && s.refreshToken == Str(refresh)
    ensures interval.Seconds? ==> s.interval == interval.n
    ensures interval.Duration? ==> s.interval == interval.days * 86400 + interval.seconds
    ensures !s.readyDispatched && s.user == None
  {
    var empty := map e | e in EventNames :: [];
    ClientState(Str(access), Str(refresh), IntervalSeconds(interval),
                empty["token_refresh" := empty["token_refresh"] + [FetchSelf]], false, None)
  }

  // ---------------------------------------------------------------------------
  // Registration and dispatch
  // ---------------------------------------------------------------------------

  /**
   * `on(event)(h)`: appends `h` to the event's handler list and returns `h`;
   * an event the registry does not hold raises `KeyError`.
   */
  function On(s: ClientState, event: string, h: Handler): (r: Result<(ClientState, Handler), Error>)
    ensures r.Success? <==> event in s.handlers
    ensures r.Failure? ==> r.error == KeyError(event)
    ensures r.Success? ==> r.value.1 == h
    ensures r.Success? ==> r.value.0.handlers.Keys == s.handlers.Keys
    ensures r.Success? ==> r.value.0.handlers[event] == s.handlers[event] + [h]
    ensures r.Success? ==> forall e :: e in s.handlers && e != event ==> r.value.0.handlers[e] == s.handlers[e]
    ensures r.Success? ==> r.value.0 == s.(handlers := r.value.0.handlers)
  {
    if event in s.handlers then
      Success((s.(handlers := s.handlers[event := s.handlers[event] + [h]]), h))
    else
      Failure(KeyError(event))
  }

  /** `dispatch(event)`: the handlers it invokes, in registration order; none for an undeclared event. */
  function Dispatch(s: ClientState, event: string): (hs: seq<Handler>)
    ensures event !in s.handlers ==> hs == []
    ensures event in s.handlers ==> hs == s.handlers[event]
  {
    if event in s.handlers then s.handlers[event] else []
  }

  /** A registration request: event name and handler. */
  datatype Registration = Registration(event: string, handler: Handler)

  /** Registers each handler in turn, stopping at the first undeclared event. */
  function RegisterAll(s: ClientState, regs: seq<Registration>): (r: Result<ClientState, Error>)
    decreases |regs|
  {
    if |regs| == 0 then Success(s)
    else match On(s, regs[0].event, regs[0].handler)
      case Failure(e) => Failure(e)
      case Success(p) => RegisterAll(p.0, regs[1..])
  }

  /** The handlers of `regs` registered for `event`, in order. */
  function HandlersFor(regs: seq<Registration>, event: string): seq<Handler>
    decreases |regs|
  {
    if |regs| == 0 then []
    else (if regs[0].event == event then [regs[0].handler] else []) + HandlersFor(regs[1..], event)
  }

  /**
   * Registration order is invocation order: after registering `regs`, a
   * dispatch of any event invokes the handlers it had, then the ones
   * registered for it, in the order they were registered.
   */
  lemma {:induction false} DispatchFollowsRegistrationOrder(s: ClientState, regs: seq<Registration>, event: string)
    requires RegisterAll(s, regs).Success?
    ensures Dispatch(RegisterAll(s, regs).value, event) == Dispatch(s, event) + HandlersFor(regs, event)
    decreases |regs|
  {
    if |regs| > 0 {
      var p := On(s, regs[0].event, regs[0].handler).value;
      DispatchFollowsRegistrationOrder(p.0, regs[1..], event);
    }
  }

  /** Registration succeeds exactly when every event named is declared, and never adds an event. */
  lemma {:induction false} RegisterAllDeclaredOnly(s: ClientState, regs: seq<Registration>)
    ensures RegisterAll(s, regs).Success? <==> forall i :: 0 <= i < |regs| ==> regs[i].event in s.handlers
    ensures RegisterAll(s, regs).Success? ==> RegisterAll(s, regs).value.handlers.Keys == s.handlers.Keys
    decreases |regs|
  {
    if |regs| > 0 {
      match On(s, regs[0].event, regs[0].handler)
      case Failure(_) =>
      case Success(p) =>
        RegisterAllDeclaredOnly(p.0, regs[1..]);
        assert forall i :: 1 <= i < |regs| ==> regs[i] == regs[1..][i - 1];
    }
  }

  // ---------------------------------------------------------------------------
  // Requests
  // ---------------------------------------------------------------------------

  /** `_authorization_header`: `"Bearer "` followed by the access token, which must be a string. */
  function AuthorizationHeader(token: Value): (r: Result<string, Error>)
    ensures r.Success? <==> token.Str?
    ensures r.Success? ==> |r.value| == 7 + |token.s| && r.value[..7] == "Bearer " && r.value[7..] == token.s
    ensures r.Failure? ==> r.error.TypeError?
  {
    if token.Str? then Success("Bearer " + token.s)
    else Failure(TypeError("can only concatenate str to str"))
  }

  /** The headers of an authenticated request: the defaults with `Authorization` added. */
  function RequestHeaders(s: ClientState): (r: Result<map<string, string>, Error>)
    ensures r.Success? <==> s.accessToken.Str?
    ensures r.Success? ==> r.value.Keys == DefaultHeaders.Keys + {"Authorization"}
    ensures r.Success? ==> forall k :: k in DefaultHeaders ==> r.value[k] == DefaultHeaders[k]
    ensures r.Success? ==> Success(r.value["Authorization"]) == AuthorizationHeader(s.accessToken)
  {
    match AuthorizationHeader(s.accessToken)
    case Failure(e) => Failure(e)
    case Success(auth) => Success(DefaultHeaders + map["Authorization" := auth])
  }

  /** An HTTP response: its status and its decoded JSON body. */
  datatype Reply = Reply(status: int, body: Value)

  /** What `raise_for_status()` lets through. */
  predicate StatusOk(status: int)
  {
    status < 400
  }

  /** One transition: the new state, the events dispatched after it, and whether the call raised. */
  datatype Step = Step(state: ClientState, dispatched: seq<string>, outcome: Outcome<Error>)

  /** A token from a refresh response replaces the stored one only when it is truthy. */
  function Replaced(stored: Value, answered: Value): (r: Value)
    ensures Truthy(answered) ==> r == answered
    ensures !Truthy(answered) ==> r == stored
  {
    if Truthy(answered) then answered else stored
  }

  /**
   * `request_refresh_token` once the refresh endpoint has answered `reply`.
   * The access token is read and assigned before the refresh token is read,
   * so a body without `refresh_token` raises after updating the access token.
   */
  function RequestRefresh(s: ClientState, reply: Reply): (r: Step)
    ensures r.outcome.Pass? <==> (StatusOk(reply.status) && reply.body.Object?
      && "access_token" in reply.body.fields && "refresh_token" in reply.body.fields)
    ensures r.outcome.Pass? ==> r.dispatched == ["token_refresh"]
    ensures r.outcome.Fail? ==> r.dispatched == []
    ensures !StatusOk(reply.status) ==> r.state == s && r.outcome == Fail(HttpError(reply.status))
    ensures r.outcome.Pass? ==>
      && r.state.accessToken == Replaced(s.accessToken, reply.body.fields["access_token"])
      && r.state.refreshToken == Replaced(s.refreshToken, reply.body.fields["refresh_token"])
    ensures r.state == s.(accessToken := r.state.accessToken, refreshToken := r.state.refreshToken)
    ensures r.state.refreshToken != s.refreshToken ==> r.outcome.Pass?
  {
    if !StatusOk(reply.status) then Step(s, [], Fail(HttpError(reply.status)))
    else if !reply.body.Object? then Step(s, [], Fail(TypeError("response body is not a mapping")))
    else
      var data := reply.body.fields;
      if "access_token" !in data then Step(s, [], Fail(KeyError("access_token")))
      else
        var s1 := s.(accessToken := Replaced(s.accessToken, data["access_token"]));
        if "refresh_token" !in data then Step(s1, [], Fail(KeyError("refresh_token")))
        else
          var s2 := s1.(refreshToken := Replaced(s1.refreshToken, data["refresh_token"]));
          Step(s2, ["token_refresh"], Pass)
  }

  /**
   * `fetch_self` once the profile endpoint has answered `reply`: the user is
   * replaced, and `ready` is dispatched after it on the first success only.
   */
  function FetchSelfStep(s: ClientState, reply: Reply): (r: Step)
    ensures r.outcome.Pass? <==> (s.accessToken.Str? && StatusOk(reply.status) && reply.body.Object?
      && DecodeClient(reply.body.fields).Success?)
    ensures r.outcome.Pass? ==> r.state.user == Some(DecodeClient(reply.body.fields).value)
    ensures r.outcome.Fail? ==> r.state == s && r.dispatched == []
    ensures r.dispatched == (if r.outcome.Pass? && !s.readyDispatched then ["ready"] else [])
    ensures r.state.readyDispatched == (s.readyDispatched || r.outcome.Pass?)
    ensures "ready" in r.dispatched ==> r.state.user.Some?
    ensures r.state == s.(user := r.state.user, readyDispatched := r.state.readyDispatched)
  {
    match RequestHeaders(s)
    case Failure(e) => Step(s, [], Fail(e))
    case Success(_) =>
      if !StatusOk(reply.status) then Step(s, [], Fail(HttpError(reply.status)))
      else if !reply.body.Object? then Step(s, [], Fail(TypeError("response body is not a mapping")))
      else match DecodeClient(reply.body.fields)
        case Failure(e) => Step(s, [], Fail(e))
        case Success(u) =>
          var s1 := s.(user := Some(u));
          if !s1.readyDispatched then Step(s1.(readyDispatched := true), ["ready"], Pass)
          else Step(s1, [], Pass)
  }

  // ---------------------------------------------------------------------------
  // Runs
  // ---------------------------------------------------------------------------

  /** What the runtime is driven by: a refresh response, a profile response, or a registration. */
  datatype Input =
    | RefreshReply(reply: Reply)
    | ProfileReply(reply: Reply)
    | Register(event: string, handler: Handler)

  function Apply(s: ClientState, input: Input): Step
  {
    match input
    case RefreshReply(reply) => RequestRefresh(s, reply)
    case ProfileReply(reply) => FetchSelfStep(s, reply)
    case Register(event, handler) =>
      match On(s, event, handler)
      case Success(p) => Step(p.0, [], Pass)
      case Failure(e) => Step(s, [], Fail(e))
  }

  /** The final state and every event dispatched, in order, when `inputs` drive the runtime from `s`. */
  function Run(s: ClientState, inputs: seq<Input>): (ClientState, seq<string>)
    decreases |inputs|
  {
    if |inputs| == 0 then (s, [])
    else
      var step := Apply(s, inputs[0]);
      var rest := Run(step.state, inputs[1..]);
      (rest.0, step.dispatched + rest.1)
  }

  lemma RunSingle(s: ClientState, input: Input)
    ensures Run(s, [input]) == (Apply(s, input).state, Apply(s, input).dispatched)
  {
    assert [input][1..] == [];
    assert Apply(s, input).dispatched + [] == Apply(s, input).dispatched;
  }

  /** How many times `e` occurs in `es`. */
  function Count(es: seq<string>, e: string): nat
    decreases |es|
  {
    if |es| == 0 then 0 else (if es[0] == e then 1 else 0) + Count(es[1..], e)
  }

  lemma {:induction false} CountAppend(a: seq<string>, b: seq<string>, e: string)
    ensures Count(a + b, e) == Count(a, e) + Count(b, e)
    decreases |a|
  {
    if |a| > 0 {
      CountAppend(a[1..], b, e);
      assert (a + b)[0] == a[0];
      assert (a + b)[1..] == a[1..] + b;
    } else {
      assert a + b == b;
    }
  }

  /**
   * `ready` is dispatched at most once over any run: exactly once if the run
   * turns the flag on, never if the flag was already set, and the flag never
   * goes back to false.
   */
  lemma {:induction false} ReadyAtMostOnce(s: ClientState, inputs: seq<Input>)
    ensures s.readyDispatched ==> Run(s, inputs).0.readyDispatched
    ensures Count(Run(s, inputs).1, "ready") == (if !s.readyDispatched && Run(s, inputs).0.readyDispatched then 1 else 0)
    decreases |inputs|
  {
    if |inputs| > 0 {
      var step := Apply(s, inputs[0]);
      ReadyAtMostOnce(step.state, inputs[1..]);
      CountAppend(step.dispatched, Run(step.state, inputs[1..]).1, "ready");
      assert Count(step.dispatched, "ready") == (if !s.readyDispatched && step.state.readyDispatched then 1 else 0) by {
        assert step.dispatched == [] || step.dispatched == ["ready"] || step.dispatched == ["token_refresh"];
        assert step.dispatched == ["ready"] <==> !s.readyDispatched && step.state.readyDispatched;
      }
    }
  }

  /**
   * The runtime's wiring: the declared events are exactly the registry's keys,
   * and `fetch_self` is the first `token_refresh` handler, so it runs before
   * any application handler registered for that event.
   */
  ghost predicate Wired(s: ClientState)
  {
    && s.handlers.Keys == EventNames
    && "token_refresh" in s.handlers
    && |s.handlers["token_refresh"]| > 0
    && s.handlers["token_refresh"][0] == FetchSelf
  }

  lemma {:induction false} RunPreservesWiring(s: ClientState, inputs: seq<Input>)
    requires Wired(s)
    ensures Wired(Run(s, inputs).0)
    ensures Dispatch(Run(s, inputs).0, "token_refresh")[0] == FetchSelf
    decreases |inputs|
  {
    if |inputs| > 0 {
      var step := Apply(s, inputs[0]);
      assert Wired(step.state);
      RunPreservesWiring(step.state, inputs[1..]);
    }
  }

  lemma InitWired(access: string, refresh: string, interval: IntervalArg)
    ensures Wired(Init(access, refresh, interval))
  {
  }

  /** A truthy token never becomes falsy: a refresh response cannot blank a stored credential. */
  lemma {:induction false} RunKeepsTokensTruthy(s: ClientState, inputs: seq<Input>)
    requires Truthy(s.accessToken) && Truthy(s.refreshToken)
    ensures Truthy(Run(s, inputs).0.accessToken) && Truthy(Run(s, inputs).0.refreshToken)
    decreases |inputs|
  {
    if |inputs| > 0 {
      var step := Apply(s, inputs[0]);
      RunKeepsTokensTruthy(step.state, inputs[1..]);
    }
  }

  /**
   * Two refresh cycles, the first answering only a new access token and the
   * second only a new refresh token, leave the newer value of each.
   */
  lemma TwoRefreshesKeepNewestTokens(s: ClientState, access: string, refresh: string)
    requires |access| > 0 && |refresh| > 0
    ensures var first := Reply(200, Object(map["access_token" := Str(access), "refresh_token" := Null]));
      var second := Reply(200, Object(map["access_token" := Str(""), "refresh_token" := Str(refresh)]));
      var final := Run(s, [RefreshReply(first), RefreshReply(second)]);
      final.0.accessToken == Str(access) && final.0.refreshToken == Str(refresh)
        && final.1 == ["token_refresh", "token_refresh"]
  {
    var first := Reply(200, Object(map["access_token" := Str(access), "refresh_token" := Null]));
    var second := Reply(200, Object(map["access_token" := Str(""), "refresh_token" := Str(refresh)]));
    var inputs := [RefreshReply(first), RefreshReply(second)];
    var s1 := RequestRefresh(s, first);
    assert s1.state.accessToken == Str(access);
    var s2 := RequestRefresh(s1.state, second);
    assert s2.state.accessToken == Str(access) && s2.state.refreshToken == Str(refresh);
    assert inputs[1..] == [RefreshReply(second)];
    assert "refresh_token" in second.body.fields && "access_token" in second.body.fields;
    RunSingle(s1.state, RefreshReply(second));
    assert Run(s, inputs) == (s2.state, ["token_refresh"] + ["token_refresh"]);
  }
}

=== FILE: errors.dfy ===
/** The exceptions the modelled code raises, one constructor per kind. */
module Errors {

  datatype Error =
    /** `d[k]` on a dict without key `k`. */
    | KeyError(key: string)
    /** An operation applied to a value of the wrong type (indexing a list by a string, `"Bearer " + None`, ...). */
    | TypeError(reason: string)
    /** Reading an attribute an object does not have. */
    | AttributeError(name: string)
    /** Raised by `Course.__init__` on every call. */
    | NotImplemented
    /** `raise_for_status()` on a response whose status is 400 or more. */
    | HttpError(status: int)
    /** The cache's guard against use before the client is ready (`ClientNotReadyError`). */
    | ClientNotReady
    /** Zero-argument `super()` in a method without a first positional parameter. */
    | RuntimeError(reason: string)
}

=== FILE: json.dfy ===
/** JSON-shaped payloads as the API delivers them, with Python's reading of them. */
module Json {

  /** A decoded JSON value. Floating-point numbers are not part of the model. */
  datatype Value =
    | Null
    | Bool(b: bool)
    | Int(i: int)
    | Str(s: string)
    | Array(items: seq<Value>)
    | Object(fields: map<string, Value>)

  /** A decoded JSON object: the raw key/value payload an entity is read from. */
  type Raw = map<string, Value>

  /** Python truthiness: `None`, `False`, `0`, `""` and empty containers are false. */
  predicate Truthy(v: Value)
  {
    match v
    case Null => false
    case Bool(b) => b
    case Int(i) => i != 0
    case Str(s) => |s| > 0
    case Array(items) => |items| > 0
    case Object(fields) => |fields| > 0
  }

  /** Whether Python accepts the value as a dict key: lists and dicts are unhashable. */
  predicate Hashable(v: Value)
  {
    !v.Array? && !v.Object?
  }

  /** Whether `for x in v` accepts the value: `None`, booleans and integers are not iterable. */
  predicate Iterable(v: Value)
  {
    v.Str? || v.Array? || v.Object?
  }
}

=== FILE: models.dfy ===
/**
 * The entity records of saturn/models.py: permissions, media, users and the
 * signed-in user, each read from a raw JSON object by direct key lookups.
 *
 * Python's `data[key]` raises `KeyError` on the first absent key, so every
 * decoder here reads its keys in the source's order and reports the first one
 * that is missing. Field values are stored exactly as the payload holds them:
 * the source never checks their types.
 */
module Models {
  import opened Wrappers
  import opened Json
  import opened Errors

  // ---------------------------------------------------------------------------
  // Reading keys in order
  // ---------------------------------------------------------------------------

  /** Every key of `keys` is present in `data`. */
  predicate HasKeys(data: Raw, keys: seq<string>)
  {
    forall k :: k in keys ==> k in data
  }

  /** `vs` are the values `data` holds under `keys`, position by position. */
  ghost predicate ReadsKeys(data: Raw, keys: seq<string>, vs: seq<Value>)
  {
    |vs| == |keys| && forall i :: 0 <= i < |keys| ==> keys[i] in data && vs[i] == data[keys[i]]
  }

  /** Reading `keys` from `data` in order raises at position `n`: every earlier key is present and `keys[n]` is not. */
  ghost predicate MissingAt(data: Raw, keys: seq<string>, n: int)
  {
    0 <= n < |keys| && keys[n] !in data && forall j :: 0 <= j < n ==> keys[j] in data
  }

  /** Reading `keys` from `data` in order raises `e`: the `KeyError` of the first absent key. */
  ghost predicate RaisesAt(data: Raw, keys: seq<string>, e: Error)
  {
    exists n :: MissingAt(data, keys, n) && e == KeyError(keys[n])
  }

  /**
   * Assigning `keys` from `data` over `prior` raised `e` and left `now`: the
   * positions before the first absent key hold the new values, the others the
   * prior ones.
   */
  ghost predicate AssignedUntilRaise(data: Raw, keys: seq<string>, prior: seq<Value>, now: seq<Value>, e: Error)
  {
    exists n :: MissingAt(data, keys, n) && e == KeyError(keys[n])
      && |now| == |keys| == |prior|
      && (forall i :: 0 <= i < n ==> now[i] == data[keys[i]])
      && (forall i :: n <= i < |keys| ==> now[i] == prior[i])
  }

  /**
   * Reading the last `rest` keys of `keys`: the position of the first absent
   * one, or `|keys|`.
   */
  function PresentFrom(data: Raw, keys: seq<string>, rest: nat): (n: nat)
    requires rest <= |keys|
    ensures |keys| - rest <= n <= |keys|
    ensures forall j :: |keys| - rest <= j < n ==> keys[j] in data
    ensures n < |keys| ==> keys[n] !in data
  {
    var i := |keys| - rest;
    if rest == 0 || keys[i] !in data then i
    else PresentFrom(data, keys, rest - 1)
  }

  /** How many leading keys of `keys` can be read from `data` before a lookup raises. */
  function PresentPrefix(data: Raw, keys: seq<string>): (n: nat)
    ensures n <= |keys|
    ensures forall j :: 0 <= j < n ==> keys[j] in data
    ensures n < |keys| ==> keys[n] !in data
  {
    PresentFrom(data, keys, |keys|)
  }

  lemma PresentPrefixComplete(data: Raw, keys: seq<string>)
    ensures PresentPrefix(data, keys) == |keys| <==> HasKeys(data, keys)
    ensures PresentPrefix(data, keys) < |keys| ==> MissingAt(data, keys, PresentPrefix(data, keys))
  {
    var n := PresentPrefix(data, keys);
    if n < |keys| {
      assert keys[n] in keys;
    } else {
      forall k | k in keys ensures k in data {
        var i :| 0 <= i < |keys| && keys[i] == k;
      }
    }
  }

  /**
   * Reads every key of `keys` from `data`, in order, as a run of `data[key]`
   * lookups does: all values, or `KeyError` for the first absent key.
   */
  function Pick(data: Raw, keys: seq<string>): (r: Result<seq<Value>, Error>)
    ensures r.Success? <==> HasKeys(data, keys)
    ensures r.Success? ==> ReadsKeys(data, keys, r.value)
    ensures r.Failure? ==> RaisesAt(data, keys, r.error)
  {
    var n := PresentPrefix(data, keys);
    PresentPrefixComplete(data, keys);
    if n < |keys| then
      assert MissingAt(data, keys, n);
      Failure(KeyError(keys[n]))
    else
      Success(seq(|keys|, i requires 0 <= i < |keys| => data[keys[i]]))
  }

  /**
   * Assigns the values under `keys` over `prior`, one position at a time, as a
   * run of `self.f = data[key]` statements does: the assignments before the
   * first absent key take effect, the rest keep their old values.
   */
  function Overwrite(data: Raw, keys: seq<string>, prior: seq<Value>): (r: (seq<Value>, Outcome<Error>))
    requires |prior| == |keys|
    ensures |r.0| == |keys|
    ensures r.1.Pass? <==> HasKeys(data, keys)
    ensures r.1.Pass? ==> ReadsKeys(data, keys, r.0)
    ensures r.1.Fail? ==> AssignedUntilRaise(data, keys, prior, r.0, r.1.error)
  {
    var n := PresentPrefix(data, keys);
    PresentPrefixComplete(data, keys);
    var vs := seq(|keys|, i requires 0 <= i < |keys| => if i < n then data[keys[i]] else prior[i]);
    if n < |keys| then
      assert MissingAt(data, keys, n);
      (vs, Fail(KeyError(keys[n])))
    else
      (vs, Pass)
  }

  lemma ReadsKeysHasKeys(data: Raw, keys: seq<string>, vs: seq<Value>)
    requires ReadsKeys(data, keys, vs)
    ensures HasKeys(data, keys)
  {
    forall k | k in keys ensures k in data {
      var i :| 0 <= i < |keys| && keys[i] == k;
    }
  }

  lemma HasKeysAppend(data: Raw, a: seq<string>, b: seq<string>)
    ensures HasKeys(data, a + b) <==> HasKeys(data, a) && HasKeys(data, b)
  {
    if HasKeys(data, a) && HasKeys(data, b) {
      forall k | k in a + b ensures k in data {
        var i :| 0 <= i < |a + b| && (a + b)[i] == k;
        if i < |a| { assert a[i] in a; } else { assert b[i - |a|] in b; }
      }
    }
    if HasKeys(data, a + b) {
      forall k | k in a ensures k in data {
        var i :| 0 <= i < |a| && a[i] == k;
        assert (a + b)[i] in a + b;
      }
      forall k | k in b ensures k in data {
        var i :| 0 <= i < |b| && b[i] == k;
        assert (a + b)[|a| + i] in a + b;
      }
    }
  }

  lemma MissingAtAppendLeft(data: Raw, a: seq<string>, b: seq<string>, n: int)
    requires MissingAt(data, a, n)
    ensures MissingAt(data, a + b, n)
  {
    assert (a + b)[n] == a[n];
    forall j | 0 <= j < n ensures (a + b)[j] in data {
      assert (a + b)[j] == a[j];
    }
  }

  lemma MissingAtAppendRight(data: Raw, a: seq<string>, b: seq<string>, n: int)
    requires HasKeys(data, a)
    requires MissingAt(data, b, n)
    ensures MissingAt(data, a + b, |a| + n)
  {
    forall j | 0 <= j < |a| + n ensures (a + b)[j] in data {
      if j < |a| {
        assert (a + b)[j] == a[j] && a[j] in a;
      } else {
        assert (a + b)[j] == b[j - |a|];
      }
    }
  }

  /** A read of `a` that raises is a read of `a + b` that raises at the same key. */
  lemma KeyErrorAppendLeft(data: Raw, a: seq<string>, b: seq<string>, e: Error)
    requires RaisesAt(data, a, e)
    ensures RaisesAt(data, a + b, e)
  {
    var n :| MissingAt(data, a, n) && e == KeyError(a[n]);
    MissingAtAppendLeft(data, a, b, n);
    assert (a + b)[n] == a[n];
  }

  /** After a complete read of `a`, a read of `b` that raises is a read of `a + b` that raises at the same key. */
  lemma KeyErrorAppendRight(data: Raw, a: seq<string>, b: seq<string>, e: Error)
    requires HasKeys(data, a)
    requires RaisesAt(data, b, e)
    ensures RaisesAt(data, a + b, e)
  {
    var n :| MissingAt(data, b, n) && e == KeyError(b[n]);
    MissingAtAppendRight(data, a, b, n);
    assert (a + b)[|a| + n] == b[n];
  }

  // ---------------------------------------------------------------------------
  // Permissions
  // ---------------------------------------------------------------------------

  datatype Permissions = Permissions(admin: bool, owner: bool, waitlist: bool, employee: bool)

  /** `Permissions(...)`: each flag is what the caller passed, and false when it passed nothing. */
  function NewPermissions(admin: bool := false, owner: bool := false,
                          waitlist: bool := false, employee: bool := false): (p: Permissions)
    ensures p.admin == admin && p.owner == owner
    ensures p.waitlist == waitlist && p.employee == employee
  {
    Permissions(admin, owner, waitlist, employee)
  }

  lemma PermissionsDefaultFalse()
    ensures var p := NewPermissions();
      !p.admin && !p.owner && !p.waitlist && !p.employee
  {
  }

  // ---------------------------------------------------------------------------
  // Media
  // ---------------------------------------------------------------------------

  datatype Media = Media(id: Value, contentType: Value, metadata: Value,
                         resourceUrl: Value, sizeUrls: Value, isBitmoji: Value)

  /** The keys `Media.__init__` reads, in its order. */
  const MediaKeys: seq<string> :=
    ["id", "content_type", "metadata", "resource_url", "size_urls", "is_bitmoji"]

  /** The fields of a media record in the order of `MediaKeys`. */
  function MediaFields(m: Media): seq<Value>
  {
    [m.id, m.contentType, m.metadata, m.resourceUrl, m.sizeUrls, m.isBitmoji]
  }

  /** `Media(data)`. */
  function DecodeMedia(data: Raw): (r: Result<Media, Error>)
    ensures r.Success? <==> HasKeys(data, MediaKeys)
    ensures r.Success? ==> ReadsKeys(data, MediaKeys, MediaFields(r.value))
    ensures r.Failure? ==> RaisesAt(data, MediaKeys, r.error)
  {
    match Pick(data, MediaKeys)
    case Failure(e) => Failure(e)
    case Success(vs) =>
      var m := Media(vs[0], vs[1], vs[2], vs[3], vs[4], vs[5]);
      assert MediaFields(m) == vs;
      Success(m)
  }

  /** `Course(data)` always raises, so no value of this type is ever built. */
  datatype Course = Course(raw: Value)

  // ---------------------------------------------------------------------------
  // Users
  // ---------------------------------------------------------------------------

  /** The keys `BaseUser._update` reads, in its order; several differ from the attribute they fill. */
  const BaseKeys: seq<string> := [
    "created_at", "updated_at", "id", "first_name", "last_name",
    "grade", "public", "is_ambassador", "user_cohort", "user_instagram",
    "user_tiktok", "user_venmo", "user_vsco", "user_education", "user_city",
    "user_workplace", "user_snapchat", "bio", "url", "tags",
    "school_id", "name", "profile_picture", "hidden", "ambassador_school",
    "description", "affinity", "school_title", "waitlist_school", "courses"]

  /** One raw value per key of `BaseKeys`, in that order. */
  type BaseRow = vs: seq<Value> | |vs| == 30 witness seq(30, _ => Null)

  /**
   * The attributes `BaseUser._update` assigns, as the raw values it reads:
   * `fields[i]` is the value read under `BaseKeys[i]`. The named members are
   * the attributes as the class calls them.
   */
  datatype BaseUser = BaseUser(fields: BaseRow)
  {
    const createdAt: Value := fields[0]
    const updatedAt: Value := fields[1]
    const id: Value := fields[2]
    const firstName: Value := fields[3]
    const lastName: Value := fields[4]
    const grade: Value := fields[5]
    const public: Value := fields[6]
    const isAmbassador: Value := fields[7]
    const cohort: Value := fields[8]
    const instagram: Value := fields[9]
    const tiktok: Value := fields[10]
    const venmo: Value := fields[11]
    const vsco: Value := fields[12]
    const education: Value := fields[13]
    const city: Value := fields[14]
    const workplace: Value := fields[15]
    const snapchat: Value := fields[16]
    const bio: Value := fields[17]
    const url: Value := fields[18]
    const tags: Value := fields[19]
    const schoolId: Value := fields[20]
    const name: Value := fields[21]
    const profilePicture: Value := fields[22]
    const hidden: Value := fields[23]
    const ambassadorSchool: Value := fields[24]
    const description: Value := fields[25]
    const affinity: Value := fields[26]
    const schoolTitle: Value := fields[27]
    const waitlistSchool: Value := fields[28]
    const courses: Value := fields[29]
  }

  /** Constructing a `BaseUser` from `data`: `_update` on a fresh object, which is discarded if it raises. */
  function DecodeBase(data: Raw): (r: Result<BaseUser, Error>)
    ensures r.Success? <==> HasKeys(data, BaseKeys)
    ensures r.Success? ==> ReadsKeys(data, BaseKeys, r.value.fields)
    ensures r.Failure? ==> RaisesAt(data, BaseKeys, r.error)
  {
    match Pick(data, BaseKeys)
    case Failure(e) => Failure(e)
    case Success(vs) => Success(BaseUser(vs))
  }

  /** `BaseUser._update(data)` on an existing user: the new record, and whether the update raised. */
  function UpdateBase(u: BaseUser, data: Raw): (r: (BaseUser, Outcome<Error>))
    ensures r.1.Pass? <==> HasKeys(data, BaseKeys)
    ensures r.1.Pass? ==> ReadsKeys(data, BaseKeys, r.0.fields)
    ensures r.1.Fail? ==> AssignedUntilRaise(data, BaseKeys, u.fields, r.0.fields, r.1.error)
  {
    var (vs, outcome) := Overwrite(data, BaseKeys, u.fields);
    (BaseUser(vs), outcome)
  }

  /** The keys `ClientUser._update` reads after `BaseKeys`, in its order. */
  const ExtKeys: seq<string> := [
    "email", "profile_pic_url", "birthday", "gender", "gender_preference",
    "onboarded", "phone_number", "phone_validated", "granted_scopes", "referred_by",
    "ambassador_school_id", "schedule_type_response", "lite_to_live_completed", "gameball_id",
    "hashid"]

  /** One raw value per key of `ExtKeys`, in that order. */
  type ExtRow = vs: seq<Value> | |vs| == 15 witness seq(15, _ => Null)

  /**
   * The signed-in user's extra attributes, assigned by `ClientUser._update`
   * after the base ones: `fields[i]` is the value read under `ExtKeys[i]`.
   */
  datatype ClientExt = ClientExt(fields: ExtRow)
  {
    const email: Value := fields[0]
    const profilePicUrl: Value := fields[1]
    const birthday: Value := fields[2]
    const gender: Value := fields[3]
    const genderPreference: Value := fields[4]
    const onboarded: Value := fields[5]
    const phoneNumber: Value := fields[6]
    const phoneValidated: Value := fields[7]
    const grantedScopes: Value := fields[8]
    const referredBy: Value := fields[9]
    const ambassadorSchoolId: Value := fields[10]
    const scheduleTypeResponse: Value := fields[11]
    const liteToLiveCompleted: Value := fields[12]
    const gameballId: Value := fields[13]
    const hashid: Value := fields[14]
  }

  /** The signed-in user: the base record composed with the extension record. */
  datatype ClientUser = ClientUser(base: BaseUser, ext: ClientExt)

  /** Every key `ClientUser._update` reads, in its order. */
  const ClientKeys: seq<string> := BaseKeys + ExtKeys

  /** Constructing a `ClientUser` from `data`. */
  function DecodeClient(data: Raw): (r: Result<ClientUser, Error>)
    ensures r.Success? <==> HasKeys(data, ClientKeys)
    ensures r.Success? ==> DecodeBase(data) == Success(r.value.base)
    ensures r.Success? ==> ReadsKeys(data, ExtKeys, r.value.ext.fields)
    ensures r.Failure? ==> RaisesAt(data, ClientKeys, r.error)
  {
    HasKeysAppend(data, BaseKeys, ExtKeys);
    match DecodeBase(data)
    case Failure(e) =>
      KeyErrorAppendLeft(data, BaseKeys, ExtKeys, e);
      Failure(e)
    case Success(b) =>
      match Pick(data, ExtKeys)
      case Failure(e) =>
        KeyErrorAppendRight(data, BaseKeys, ExtKeys, e);
        Failure(e)
      case Success(vs) => Success(ClientUser(b, ClientExt(vs)))
  }

  /** `ClientUser._update(data)` on an existing signed-in user: base attributes first, then the extension. */
  function UpdateClient(u: ClientUser, data: Raw): (r: (ClientUser, Outcome<Error>))
    ensures r.1.Pass? <==> HasKeys(data, ClientKeys)
    ensures r.1.Pass? ==> DecodeClient(data) == Success(r.0)
    ensures r.1.Fail? ==> RaisesAt(data, ClientKeys, r.1.error)
    ensures !HasKeys(data, BaseKeys) ==> r.0.ext == u.ext
  {
    HasKeysAppend(data, BaseKeys, ExtKeys);
    var (b, baseOutcome) := UpdateBase(u.base, data);
    if baseOutcome.Fail? then
      KeyErrorAppendLeft(data, BaseKeys, ExtKeys, baseOutcome.error);
      (ClientUser(b, u.ext), baseOutcome)
    else
      var (vs, extOutcome) := Overwrite(data, ExtKeys, u.ext.fields);
      if extOutcome.Fail? then
        KeyErrorAppendRight(data, BaseKeys, ExtKeys, extOutcome.error);
        (ClientUser(b, ClientExt(vs)), extOutcome)
      else
        var r := ClientUser(b, ClientExt(vs));
        DecodeClientDeterminedByReads(data, r);
        (r, extOutcome)
  }

  /** `data` holds `key`, with the value `v`. */
  ghost predicate ReadFrom(data: Raw, key: string, v: Value)
  {
    key in data && data[key] == v
  }

  /**
   * The attributes filled from renamed keys (`cohort` from `user_cohort`,
   * ...) hold the payload's values under those keys.
   */
  lemma DecodeBaseRenamedKeys(data: Raw)
    requires DecodeBase(data).Success?
    ensures var u := DecodeBase(data).value;
      && ReadFrom(data, "user_cohort", u.cohort) && ReadFrom(data, "user_instagram", u.instagram)
      && ReadFrom(data, "user_tiktok", u.tiktok) && ReadFrom(data, "user_venmo", u.venmo)
      && ReadFrom(data, "user_vsco", u.vsco) && ReadFrom(data, "user_education", u.education)
      && ReadFrom(data, "user_city", u.city) && ReadFrom(data, "user_workplace", u.workplace)
      && ReadFrom(data, "user_snapchat", u.snapchat)
  {
    var u := DecodeBase(data).value;
    assert BaseKeys[8] == "user_cohort" && u.fields[8] == data[BaseKeys[8]];
    assert BaseKeys[9] == "user_instagram" && u.fields[9] == data[BaseKeys[9]];
    assert BaseKeys[10] == "user_tiktok" && u.fields[10] == data[BaseKeys[10]];
    assert BaseKeys[11] == "user_venmo" && u.fields[11] == data[BaseKeys[11]];
    assert BaseKeys[12] == "user_vsco" && u.fields[12] == data[BaseKeys[12]];
    assert BaseKeys[13] == "user_education" && u.fields[13] == data[BaseKeys[13]];
    assert BaseKeys[14] == "user_city" && u.fields[14] == data[BaseKeys[14]];
    assert BaseKeys[15] == "user_workplace" && u.fields[15] == data[BaseKeys[15]];
    assert BaseKeys[16] == "user_snapchat" && u.fields[16] == data[BaseKeys[16]];
  }

  /** The attributes the rest of the client reads hold the payload's values under their keys. */
  lemma DecodeBaseKeyAttributes(data: Raw)
    requires DecodeBase(data).Success?
    ensures var u := DecodeBase(data).value;
      && ReadFrom(data, "created_at", u.createdAt) && ReadFrom(data, "updated_at", u.updatedAt)
      && ReadFrom(data, "id", u.id) && ReadFrom(data, "profile_picture", u.profilePicture)
      && ReadFrom(data, "courses", u.courses)
  {
    var u := DecodeBase(data).value;
    assert BaseKeys[0] == "created_at" && u.fields[0] == data[BaseKeys[0]];
    assert BaseKeys[1] == "updated_at" && u.fields[1] == data[BaseKeys[1]];
    assert BaseKeys[2] == "id" && u.fields[2] == data[BaseKeys[2]];
    assert BaseKeys[22] == "profile_picture" && u.fields[22] == data[BaseKeys[22]];
    assert BaseKeys[29] == "courses" && u.fields[29] == data[BaseKeys[29]];
  }

  /**
   * A completed `_update` replaces the whole snapshot: the record is the one
   * constructing from the new payload yields, whatever the user held before.
   */
  lemma UpdateBaseReplacesSnapshot(u: BaseUser, v: BaseUser, data: Raw)
    ensures UpdateBase(u, data).1.Pass? ==> DecodeBase(data) == Success(UpdateBase(u, data).0)
    ensures UpdateBase(u, data).1.Pass? ==> UpdateBase(u, data).0 == UpdateBase(v, data).0
  {
    if UpdateBase(u, data).1.Pass? {
      DecodeBaseDeterminedByReads(data, UpdateBase(u, data).0);
      DecodeBaseDeterminedByReads(data, UpdateBase(v, data).0);
    }
  }

  /** Every payload that constructs a signed-in user also constructs a plain user with the same base attributes. */
  lemma ClientPayloadDecodesAsBase(data: Raw)
    ensures HasKeys(data, ClientKeys) ==> HasKeys(data, BaseKeys)
    ensures DecodeClient(data).Success? ==> DecodeBase(data) == Success(DecodeClient(data).value.base)
  {
    HasKeysAppend(data, BaseKeys, ExtKeys);
  }

  /** Values read from `data` under `keys` are what a complete read of `keys` returns. */
  lemma PickDeterminedByReads(data: Raw, keys: seq<string>, vs: seq<Value>)
    requires ReadsKeys(data, keys, vs)
    ensures Pick(data, keys) == Success(vs)
  {
    ReadsKeysHasKeys(data, keys, vs);
    var r := Pick(data, keys);
    assert r.value == vs;
  }

  lemma DecodeBaseDeterminedByReads(data: Raw, b: BaseUser)
    requires ReadsKeys(data, BaseKeys, b.fields)
    ensures DecodeBase(data) == Success(b)
  {
    PickDeterminedByReads(data, BaseKeys, b.fields);
  }

  /** A record whose every attribute was read from `data` is the one construction from `data` yields. */
  lemma DecodeClientDeterminedByReads(data: Raw, u: ClientUser)
    requires ReadsKeys(data, BaseKeys, u.base.fields)
    requires ReadsKeys(data, ExtKeys, u.ext.fields)
    ensures DecodeClient(data) == Success(u)
  {
    DecodeBaseDeterminedByReads(data, u.base);
    PickDeterminedByReads(data, ExtKeys, u.ext.fields);
  }

  // ---------------------------------------------------------------------------
  // Derived accessors
  // ---------------------------------------------------------------------------

  /**
   * `datetime.fromisoformat` applied to a stored value. The ISO-8601 parser is
   * a parameter: only whether it is reached, and with which string, is modelled.
   */
  function FromIso<T>(v: Value, parse: string -> Result<T, Error>): (r: Result<T, Error>)
    ensures v.Str? ==> r == parse(v.s)
    ensures !v.Str? ==> r.Failure? && r.error.TypeError?
  {
    if v.Str? then parse(v.s) else Failure(TypeError("fromisoformat: argument must be str"))
  }

  /**
   * `created_at`: parsed from the stored `created_at` string on every read,
   * whatever else the user holds; a stored non-string raises `TypeError`.
   */
  function CreatedAt<T>(u: BaseUser, parse: string -> Result<T, Error>): (r: Result<T, Error>)
    ensures u.createdAt.Str? ==> r == parse(u.createdAt.s)
    ensures !u.createdAt.Str? ==> r.Failure? && r.error.TypeError?
  {
    FromIso(u.createdAt, parse)
  }

  /**
   * `updated_at`: parsed from the stored `updated_at` string on every read,
   * whatever else the user holds; a stored non-string raises `TypeError`.
   */
  function UpdatedAt<T>(u: BaseUser, parse: string -> Result<T, Error>): (r: Result<T, Error>)
    ensures u.updatedAt.Str? ==> r == parse(u.updatedAt.s)
    ensures !u.updatedAt.Str? ==> r.Failure? && r.error.TypeError?
  {
    FromIso(u.updatedAt, parse)
  }

  /**
   * The timestamps reflect the latest snapshot: after a completed `_update`
   * they are the payload's strings parsed, whatever the user held before.
   */
  lemma TimestampsFollowSnapshot<T>(u: BaseUser, data: Raw, parse: string -> Result<T, Error>)
    requires UpdateBase(u, data).1.Pass?
    ensures CreatedAt(UpdateBase(u, data).0, parse) == FromIso(data["created_at"], parse)
    ensures UpdatedAt(UpdateBase(u, data).0, parse) == FromIso(data["updated_at"], parse)
  {
    UpdateBaseReplacesSnapshot(u, u, data);
    DecodeBaseKeyAttributes(data);
  }

  /**
   * `profile_picture`: nothing when the stored value is falsy, otherwise the
   * media record built from it.
   */
  function ProfilePicture(u: BaseUser): (r: Result<Option<Media>, Error>)
    ensures r == Success(None) <==> !Truthy(u.profilePicture)
    ensures r.Success? && r.value.Some? ==>
      u.profilePicture.Object? && DecodeMedia(u.profilePicture.fields) == Success(r.value.value)
    ensures Truthy(u.profilePicture) && u.profilePicture.Object? ==>
      (r.Success? <==> HasKeys(u.profilePicture.fields, MediaKeys))
    ensures Truthy(u.profilePicture) && !u.profilePicture.Object? ==> r.Failure? && r.error.TypeError?
  {
    var v := u.profilePicture;
    if !Truthy(v) then Success(None)
    else match v
      case Object(fields) =>
        (match DecodeMedia(fields)
         case Success(m) => Success(Some(m))
         case Failure(e) => Failure(e))
      case _ => Failure(TypeError("media payload is not a mapping"))
  }

  /**
   * `courses`: `Course` raises on every element, so only an empty collection
   * reads successfully; a value Python cannot iterate raises `TypeError`.
   */
  function Courses(u: BaseUser): (r: Result<seq<Course>, Error>)
    ensures r.Success? ==> r.value == []
    ensures r.Success? <==> Iterable(u.courses) && !Truthy(u.courses)
    ensures Iterable(u.courses) && Truthy(u.courses) ==> r == Failure(NotImplemented)
    ensures !Iterable(u.courses) ==> r.Failure? && r.error.TypeError?
  {
    match u.courses
    case Array(items) => if |items| == 0 then Success([]) else Failure(NotImplemented)
    case Object(fields) => if |fields| == 0 then Success([]) else Failure(NotImplemented)
    case Str(s) => if |s| == 0 then Success([]) else Failure(NotImplemented)
    case _ => Failure(TypeError("courses value is not iterable"))
  }

  // ---------------------------------------------------------------------------
  // Source defects: the code as written beside the corrected reading
  // ---------------------------------------------------------------------------

  /**
   * `User(data)` as written: `User.__init__` has no `self` parameter, so its
   * zero-argument `super()` raises before any key is read.
   */
  function NewUserAsWritten(data: Raw): (r: Result<BaseUser, Error>)
    ensures r.Failure? && r.error.RuntimeError?
  {
    Failure(RuntimeError("super(): no arguments"))
  }

  /** Even a complete payload fails to construct a `User` as written, while the corrected `DecodeBase` accepts it. */
  lemma NewUserAsWrittenRejectsComplete(data: Raw)
    requires HasKeys(data, BaseKeys)
    ensures NewUserAsWritten(data).Failure?
    ensures DecodeBase(data).Success?
  {
  }

  /**
   * `self.city = data['user_city'],` as written: the trailing comma stores a
   * one-element tuple, rendered here as a one-element array.
   */
  function CityAsWritten(v: Value): (r: Value)
    ensures r.Array? && |r.items| == 1 && r.items[0] == v
  {
    Array([v])
  }

  /**
   * A payload with a null `user_city` yields a truthy `city` as written, while
   * the corrected attribute holds the null itself.
   */
  lemma CityAsWrittenNullIsTruthy(data: Raw)
    requires DecodeBase(data).Success?
    requires data["user_city"] == Null
    ensures Truthy(CityAsWritten(data["user_city"]))
    ensures !Truthy(DecodeBase(data).value.city)
  {
    DecodeBaseRenamedKeys(data);
  }

  /**
   * `birthday` as written: `datetime.date()` is called without its required
   * arguments before the stored string is ever looked at.
   */
  function BirthdayAsWritten<T>(u: ClientUser, parse: string -> Result<T, Error>): (r: Result<T, Error>)
    ensures r.Failure? && r.error.TypeError?
  {
    Failure(TypeError("date() missing required argument 'year'"))
  }

  /** The corrected `birthday`: the stored `birthday` string parsed as an ISO date. */
  function Birthday<T>(u: ClientUser, parse: string -> Result<T, Error>): (r: Result<T, Error>)
    ensures u.ext.birthday.Str? ==> r == parse(u.ext.birthday.s)
    ensures !u.ext.birthday.Str? ==> r.Failure?
  {
    FromIso(u.ext.birthday, parse)
  }

  /** A user with a well-formed stored birthday reads it after the correction, and never as written. */
  lemma BirthdayAsWrittenIgnoresStoredDate<T>(u: ClientUser, parse: string -> Result<T, Error>)
    requires u.ext.birthday.Str? && parse(u.ext.birthday.s).Success?
    ensures BirthdayAsWritten(u, parse).Failure?
    ensures Birthday(u, parse).Success?
  {
  }
}

=== FILE: wrappers.dfy ===
/** Failure-carrying result types shared by every module of the model. */
module Wrappers {

  /** A value that may be absent: Python's `Optional[T]`, where `None` is absence. */
  datatype Option<+T> = None | Some(value: T)

  /** The outcome of an operation that either returns a value or raises. */
  datatype Result<+T, +E> = Success(value: T) | Failure(error: E)

  /** The outcome of an operation run for its effect only: it completes or it raises. */
  datatype Outcome<+E> = Pass | Fail(error: E)
}
